=== FILE: README.md ===
# Google Play app extractor, modelled in Dafny

The extractor reads a list of Google Play app ids. For each id it fetches the
app's store page and derives a raw record from the page's JSON-LD
`SoftwareApplication` block, falling back to the `og:` meta tags. It then
normalizes the record into the sixteen expected fields and exports the
records, among other targets, to CSV.

This project models that pipeline as pure functions over decoded JSON values:

| module | file | models |
|---|---|---|
| `Text` | `text.dfy` | `str.strip()`, `str.lower()`, substring search, `replace`, `split(":", 1)`, line splitting, `", ".join`, and the integer and float texts that `int()`, `float()` and `str()` read and write |
| `JsonValue` | `json.dfy` | decoded JSON values; `dict.get`, key assignment, `dict.update`, truthiness, `str()` and `repr()` |
| `AppRecord` | `record.dfy` | the 16-field record (`EXPECTED_FIELDS`) and its dict form |
| `DataCleaner` | `data_cleaner.dfy` | `normalize_app_data` with `_to_float`, `_to_int`, `_normalize_installs`, `_normalize_in_app_purchases` and the price, screenshot and URL rules |
| `PlayParser` | `play_parser.dfy` | `_extract_json_ld`, `_safe_get`, `parse_app_data`, `get_app_data` |
| `Batch` | `batch.dfy` | `load_settings`, the command-line overrides, `load_app_ids`, the per-app loop of `main` |
| `Exporter` | `exporter.dfy` | `export_to_csv`: the column set, the cell serialization, one row per record |
| `Wrappers` | `wrappers.dfy` | `Option` and `Result` |

Each Python exception that the code lets escape is modelled as an `Err`
value. The `try` around each app in `main` turns such an `Err` into a
skipped app.

Where the code and its documentation disagree, the model follows the code:

- **Null price.** A price of `None` becomes `"Unknown"` (`data_cleaner.py:107-108`), not `"Free"`. Only `"0"`, `"0.0"`, `"Free"` and the empty text become `"Free"`.
- **`normalize_app_data` can raise.**
  - A truthy description that is not a string reaches `(description or "").lower()` in `_normalize_in_app_purchases` and raises. This happens when the record carries no boolean and no non-empty list of purchases.
  - An `int` rating at or beyond `2^1024 - 2^970` makes `float()` raise `OverflowError`, which `_to_float` does not catch.
  - `DataCleaner.Normalize` returns an error in exactly these two cases. `Batch.ParsedRecordNormalizes` shows that only the second can reach the cleaner from the parser: the parser itself rejects a non-text description. So an app whose JSON-LD rating is such an integer is dropped by the loop.
- **Booleans count as integers.** `_to_int(True)` is `True`, and `_to_float(False)` is `0.0`.
- **"contains ads".** The parser counts "contains ads" as a sign of in-app purchases (`google_play_parser.py:141`); the cleaner's keyword list does not (`data_cleaner.py:73`). The parser always hands the cleaner a boolean, which the cleaner keeps. A record that reaches the cleaner without a boolean or a non-empty list is judged by the cleaner's list alone. There a description that mentions only "contains ads" gives `False`, where the parser gives `True` (`Batch.AdsOnlyDisagree`).

## Model

| member | source | states |
|---|---|---|
| DataCleaner.ToFloat | src/extractors/data_cleaner.py:25-35 | `None` stays none. Numbers and booleans convert directly. An int beyond the float range is an error and nothing else is. Any other value is read from its text with `,` taken as the decimal point. |
| DataCleaner.ToFloatReadsFloatText | src/extractors/data_cleaner.py:31-32 | Reading back the text `str()` gives a float yields that float. |
| DataCleaner.ToFloatDecimalComma | src/extractors/data_cleaner.py:31 | A float written with a decimal comma reads as the same float. |
| DataCleaner.ToFloatContainerIsNone | src/extractors/data_cleaner.py:31-35 | A list or dict converts to `None` and does not raise. |
| DataCleaner.ToInt | src/extractors/data_cleaner.py:37-50 | The result is `None`, an int or a bool. Ints and bools pass through unchanged, and `None` stays `None`. |
| DataCleaner.ToIntReadsIntText | src/extractors/data_cleaner.py:43-47 | The text of any integer reads back as that integer. |
| DataCleaner.ToIntIgnoresSeparators | src/extractors/data_cleaner.py:43 | Digit text that has thousands commas and a `+` reads as the integer without them. |
| DataCleaner.ToIntLabelled | src/extractors/data_cleaner.py:43-47 | For `label:digits` with a colon-free label, the number after the colon is read. |
| DataCleaner.ToIntTwoColons | src/extractors/data_cleaner.py:43-47 | The text is cut at its first colon only: text of the form `a:b:c` with a colon-free `a`, such as `"a:b:3"`, keeps the second colon in what goes to `int()`, so it gives `None`. |
| DataCleaner.ToIntFloatIsNull | src/extractors/data_cleaner.py:41-49 | A float never becomes an int: its text has a `.`, so `int()` rejects it. |
| DataCleaner.TrimIfText | src/extractors/data_cleaner.py:89-98 | A string is replaced by its stripped form, and anything else is kept. |
| DataCleaner.NormalizeInstalls | src/extractors/data_cleaner.py:52-58 | `None` stays `None`. Any other value becomes its stripped text, or `None` when that text is empty. |
| DataCleaner.NormalizeInstallsIdempotent | src/extractors/data_cleaner.py:52-58 | Cleaning installs twice gives the same result as cleaning once. |
| DataCleaner.NormalizePrice | src/extractors/data_cleaner.py:105-114 | `None` gives `"Unknown"`. A value whose stripped text is `0`, `0.0`, `Free` or empty gives `"Free"`. Any other value gives its stripped text. The result is never empty and never a zero. |
| DataCleaner.PriceOfText | src/extractors/data_cleaner.py:110-114 | The same rule, applied to a text. |
| DataCleaner.NormalizePriceIdempotent | src/extractors/data_cleaner.py:105-114 | A cleaned price cleans to itself. |
| DataCleaner.ZeroPriceIsFree | src/extractors/data_cleaner.py:110-112 | A numeric zero price, int or float, is `"Free"`. |
| DataCleaner.NormalizeInAppPurchases | src/extractors/data_cleaner.py:60-77 | A bool or a non-empty list is kept. Otherwise the result is true exactly when the lowered description mentions one of the three keywords. It fails exactly when the description is truthy and not a string. |
| DataCleaner.InAppFromDescription | src/extractors/data_cleaner.py:72-75 | "This app offers in-app purchases." with no explicit value gives `True`. |
| DataCleaner.MentionsCleanerKeywords | src/extractors/data_cleaner.py:73-74 | Mentioning the keyword list is the same as containing "in-app purchases" or "offers in app purchases". |
| DataCleaner.NormalizeScreenshots | src/extractors/data_cleaner.py:120-123 | A list is kept, `None` becomes `[]`, and any other value is wrapped in a one-element list. |
| DataCleaner.Normalize | src/extractors/data_cleaner.py:79-132 | Fails exactly on an overflowing int rating or a non-text description the heuristic must read, with the matching error. Otherwise every field holds its rule applied to the input's value for that key: the four text fields and the two URLs trimmed, the rating coerced to a float or null, the review count to an int, the installs, price and screenshots cleaned, the in-app flag judged against the trimmed description, and `appId`, `version` and the two dates copied. The record satisfies every field type of the schema. |
| DataCleaner.NormalizeFields | src/extractors/data_cleaner.py:89-129 | The same field by field, for the record after the fields are copied. |
| DataCleaner.NormalizeReadsOnlyExpected | src/extractors/data_cleaner.py:84-87 | Keys outside the 16 expected fields have no effect on the result. |
| DataCleaner.NormalizeIdempotent | src/extractors/data_cleaner.py:79-132 | A normalized record normalizes to itself. |
| DataCleaner.NormalizeFieldsFixed | src/extractors/data_cleaner.py:89-129 | Every per-field rule maps the field of a normalized record to itself. |
| AppRecord.ToDict | src/extractors/data_cleaner.py:84-87 | The dict has exactly the expected fields, in order, once each. |
| AppRecord.FromDict | src/extractors/data_cleaner.py:86-87 | Each field is the dict's value for that key, or `None` when the key is missing. |
| AppRecord.FromToDict | src/extractors/data_cleaner.py:84-87 | Copying the fields of a record's dict gives the record back. |
| AppRecord.ExpectedFieldsDistinct | src/extractors/data_cleaner.py:6-23 | The 16 field names are distinct. |
| PlayParser.FirstApp | src/extractors/google_play_parser.py:66-72 | The result is none exactly when no candidate is a `SoftwareApplication` dict. Otherwise it is such a candidate. |
| PlayParser.FirstAppAppend | src/extractors/google_play_parser.py:60-72 | The search is left to right: a match in an earlier block wins over any later one. |
| PlayParser.ExtractJsonLd | src/extractors/google_play_parser.py:59-73 | Blocks that do not decode are skipped. A list contributes its items and a dict contributes itself. The first app object wins, and the result is always an app object. |
| PlayParser.AppLd | src/extractors/google_play_parser.py:86 | The members of the JSON-LD app object, or the empty dict when the page has none. |
| PlayParser.SafeGetPath | src/extractors/google_play_parser.py:75-81 | Following the key path gives the value found there, or the default when the path leaves the dicts or a key is missing. |
| PlayParser.SafeGetDefault | src/extractors/google_play_parser.py:78-80 | Starting from the default gives the default back. |
| PlayParser.SafeGetAppend | src/extractors/google_play_parser.py:77-81 | For a default that is not a dict or is `{}`, as the parser passes, following `a + b` is the same as following `a` and then `b`. |
| PlayParser.WithMetaFallback | src/extractors/google_play_parser.py:93-99 | A truthy JSON-LD value wins. Otherwise the result is the stripped meta content, or `None` without one. |
| PlayParser.DeveloperOf | src/extractors/google_play_parser.py:102-110 | For `author`, or else `publisher`: a dict gives its `name`, and its `url` or else `sameAs`. A string gives the name alone. Anything else gives neither. |
| PlayParser.AuthorBeforePublisher | src/extractors/google_play_parser.py:104 | When `author` is truthy, `publisher` has no effect. |
| PlayParser.RatingsOf | src/extractors/google_play_parser.py:116-120 | The result fails exactly when `aggregateRating` is present and not a dict. A missing one gives no rating. Otherwise it gives `ratingValue`, and `ratingCount` or else `reviewCount`. |
| PlayParser.OfferOf | src/extractors/google_play_parser.py:123-127 | A missing `offers` or an empty list gives `{}`. A list gives its first element. The offer must be a dict, and otherwise the result fails. |
| PlayParser.FormatPrice | src/extractors/google_play_parser.py:128-131 | The result is `"Free"` exactly for a null, zero or `"0"` price, or a `"Free"` price without a currency. Any other price gives `price currency` with a truthy currency, and the price's own text without one. |
| PlayParser.InAppOf | src/extractors/google_play_parser.py:135-144 | The result is true exactly when the lowered description mentions one of the four triggers. It fails exactly for a truthy description that is not a string, and a falsy one gives false. |
| PlayParser.ScreenshotsOf | src/extractors/google_play_parser.py:155-160 | A missing `screenshot` gives `[]` and a list is kept. Any other value is wrapped in a one-element list, even a falsy one. |
| PlayParser.ParseAppData | src/extractors/google_play_parser.py:83-182 | The result fails exactly when the rating or the offer is malformed, or the description is truthy and not text; a missing description is falsy and parses. Otherwise every field of the record is the one its rule derives from the JSON-LD and the meta tags, `installs` is `None`, and `appId` is the requested id. |
| PlayParser.LdBeforeMeta | src/extractors/google_play_parser.py:93-99 | When the JSON-LD has a truthy name, description and image, the meta tags have no effect on the result. |
| PlayParser.MetaOnlyPage | src/extractors/google_play_parser.py:86-182 | A page without an app object never fails. It gives the record built from the meta tags alone, with price `"Free"` and no screenshots. |
| PlayParser.GetAppData | src/extractors/google_play_parser.py:184-192 | An empty id fails before any fetch, and a failed fetch fails. Otherwise the result is the parse of the fetched page. |
| JsonValue.Lookup | src/extractors/data_cleaner.py:87 | `dict.get`: none exactly when the key is absent, and otherwise the value of the last member with that key. |
| JsonValue.Set | src/main.py:141-145 | After `d[k] = v`, `k` maps to `v` and every other key is unchanged. An existing key keeps its position, and a new key is appended. |
| JsonValue.SetAll | src/main.py:49 | `dict.update`: the keys of the source win, other keys keep their values, and the existing keys keep their order. |
| JsonValue.Items | src/main.py:42 | The decoded dict's items: distinct keys, each with the value `dict.get` gives. |
| Text.StripTrimsSpace | src/extractors/data_cleaner.py:110 | The result is a slice of the input with only whitespace before and after it, and it neither starts nor ends with whitespace: exactly the whitespace at the two ends is cut. |
| Text.StripIdempotent | src/extractors/data_cleaner.py:110 | Stripping twice gives the same result as stripping once. |
| Text.IntTextRoundTrip | src/extractors/data_cleaner.py:47 | `int(str(n)) == n`. |
| Text.FloatTextRoundTrip | src/extractors/data_cleaner.py:32 | `float(str(x))` gives `x` back, in canonical form. |
| Text.SplitLinesJoin | src/main.py:62 | The lines hold no line break, and joining them with a newline gives the text back with each line break written as a newline: no other character is lost or added. |
| Batch.MergeAllLookup | src/main.py:42-50 | Merging user items key by key: a user key gets the merged value, and any other key keeps its setting. |
| Batch.LoadSettings | src/main.py:19-55 | A missing or unreadable file, or a decoded value that is not a dict, gives the defaults. |
| Batch.LoadSettingsMerge | src/main.py:38-53 | A key the user leaves out keeps its default. A user dict over a default dict updates it entry by entry. Any other user value replaces the default or adds the key. |
| Batch.Override | src/main.py:140-145 | A given value replaces the setting, and nothing else changes. |
| Batch.ApplyOverrides | src/main.py:140-145 | A truthy `--locale`, `--country` or `--timeout` replaces that setting. An empty string or a zero timeout is ignored. Every other setting is unchanged. |
| Batch.LoadAppIds | src/main.py:57-72 | No file is an error. Otherwise the ids are the stripped lines that are neither blank nor `#` comments, in order, and there is an error exactly when there are none. |
| Batch.IdLinesAppend | src/main.py:62-67 | Filtering lines keeps their order. |
| Batch.IdLinesWellFormed | src/main.py:62-67 | Every id is non-empty, stripped, and does not start with `#`. |
| Batch.ProcessApp | src/main.py:190-198 | A record is kept exactly when the id is not empty, the page was fetched, it parses, and its rating is not an int beyond the float range. A kept record carries the id it was requested for. An empty id is the parser's error. |
| Batch.ProcessAppNormalized | src/main.py:192-198 | A kept record is normalized. |
| Batch.Collect | src/main.py:187-201 | The loop keeps, in order, the result of every iteration that does not raise. |
| Batch.SuccessesAppend | src/main.py:189-201 | The records of two runs of ids are the records of the first followed by those of the second. |
| Batch.SuccessesNormalized | src/main.py:189-201 | Every kept record is normalized and carries one of the requested ids. |
| Batch.RunBatch | src/main.py:186-205 | The batch fails exactly when no app gives a record. Otherwise it returns the records of the apps that did, in input order, all normalized. |
| Batch.TriggersExtendKeywords | src/extractors/google_play_parser.py:137-143 | The parser's triggers match exactly the cleaner's keywords plus "contains ads". |
| Batch.AdsOnlyDisagree | src/extractors/data_cleaner.py:72-77 | A description that mentions only "contains ads" gives true in the parser and false in the cleaner. |
| Batch.ScreenshotRulesAgree | src/extractors/google_play_parser.py:155-160 | The parser's screenshot rule gives what the cleaner's rule (`data_cleaner.py:120-123`) would give, exactly unless `screenshot` is present and null. |
| Batch.ParsedRecordNormalizes | src/main.py:192-197 | A parsed record fails normalization exactly when its rating is an int beyond the float range. Otherwise the cleaner keeps the id, the in-app verdict and the empty installs. |
| Exporter.DedupSpec | src/outputs/exporter.py:27-31 | The collected names are distinct and are exactly the keys seen. |
| Exporter.DedupPrefix | src/outputs/exporter.py:28-31 | Later rows only append names: the names of earlier rows stay a prefix. |
| Exporter.DedupAbsorb | src/outputs/exporter.py:28-31 | Keys already seen add no name. |
| Exporter.DedupDistinct | src/outputs/exporter.py:27-31 | Distinct keys are kept as they are. |
| Exporter.Fieldnames | src/outputs/exporter.py:27-31 | The header is each key of the rows, once, in order of first appearance. |
| Exporter.AddKeys | src/outputs/exporter.py:29-31 | Adding one row's keys extends the header as if those keys had been seen from the start. |
| Exporter.Serialize | src/outputs/exporter.py:34-39 | A list becomes the `str()` of its items joined by `", "`. A bool becomes `"true"` or `"false"`. Every other value is kept. |
| Exporter.SerializeShowsItems | src/outputs/exporter.py:35-36 | A serialized list contains the `str()` of each of its items. |
| Exporter.SerializeRow | src/outputs/exporter.py:45 | The keys are unchanged, and each value is serialized. |
| Exporter.ExportCsv | src/outputs/exporter.py:19-47 | No rows gives no file. Otherwise the header is the first-appearance key order, and there is one line per row holding that row's serialized cells under the header. |
| Exporter.RecordsExport | src/outputs/exporter.py:27-45 | Normalized records export under exactly the 16 expected fields, each cell the serialized field. |
| Exporter.RecordKeys | src/outputs/exporter.py:27-31 | Rows that are each keyed by exactly the 16 expected fields give those fields as the header. |

## Left out

- HTTP: `fetch_app_page`, its headers, timeout, locale and country parameters. A fetch is an input of `Batch.RunBatch` (`pages`), aligned with the ids; `None` stands for a request that raised.
- HTML parsing: BeautifulSoup and `json.loads`. A page is already given as its decoded `ld+json` blocks and the `content` of the three `og:` meta tags.
- File and console I/O: reading the config and id files (given as their text), path resolution against the project root, `argparse`, logging, `sys.exit`. The JSON export is left out, and so is CSV quoting and writing; the CSV model stops at the header and the cell values.
- Concurrency: none in the source.
- DataCleaner.ToFloat: Python floats are binary doubles, but the model keeps every float as an exact decimal: a float text is read exactly, a native int becomes `Dec(n, 0)` exactly where `float(n)` rounds beyond 2^53, and a decoded JSON float is kept as the decimal it was given. Rounding to 53 bits, exponent notation (`1e5`), digit underscores, non-ASCII decimal digits, and `nan`/`inf` are not modelled. Such texts read as no number, where `float()` would accept them.
- DataCleaner.ToInt: `int()` also accepts digit underscores and non-ASCII digits. The model rejects them.
- Text.FloatText: `str()` of a float is modelled as the plain decimal form. Python's shortest round-trip digits and its exponent form for very large or very small magnitudes are not.
- JsonValue.Json: there is no NaN or Infinity value, though `json.loads` accepts them.
- JsonValue.QuoteRepr: `repr()` of a string escapes the quote, the backslash, and the characters below U+0020 or from U+007F to U+00A0. Python also escapes other non-printable characters, such as U+00AD and U+2028; the model leaves those as they are. So `str()` of a list or dict holding such a string differs from Python's. That text is what `int()`/`float()` are given for a list or dict, which they reject either way. It is also the stored text of a list or dict price (`data_cleaner.py:110`) or installs value (`data_cleaner.py:55`), the parser's price string (`google_play_parser.py:131`), and the CSV cell of a list whose items are lists or dicts (`exporter.py:36`).
- JsonValue.Repr: a dict with a repeated key prints both members, where a decoded Python dict holds the last one only. The parser and the cleaner read objects through `JsonValue.Lookup`, which takes the last member with a key, so only the `str()` text of such an object differs.
- Text.Lower: lower-cases ASCII letters only. Full Unicode lowering matters to a keyword match only through a character that lowers to something containing an ASCII letter. There are two such characters. U+212A (Kelvin sign) lowers to `k`, which no keyword or trigger contains. U+0130 lowers to `i` followed by U+0307, and in every keyword an `i` is followed by an ASCII character. So the model's keyword verdicts agree with Python's.
- `export_to_json` and the output file names in the settings: only the CSV export is part of this model.

=== FILE: batch.dfy ===
/** The command-line driver: settings with their defaults and overrides,
    the list of app ids, and the loop that extracts and cleans one record
    per id. */
module Batch {
  import opened Wrappers
  import opened Text
  import opened JsonValue
  import opened AppRecord
  import opened DataCleaner
  import opened PlayParser

  // ---------------------------------------------------------------------
  // Settings

  /** The built-in settings. */
  function Defaults(): seq<Member> {
    [ Member("locale", JStr("en")),
      Member("country", JStr("us")),
      Member("timeout", JInt(15)),
      Member("output", JObj([
        Member("directory", JStr("data")),
        Member("json_filename", JStr("sample_output.json")),
        Member("csv_filename", JStr("sample_output.csv"))])) ]
  }

  /** What reading the config file gave: no such file, a file that could not
      be opened or did not decode, or the decoded value. */
  datatype ConfigSource = NoFile | Unreadable | Decoded(value: Json)

  /** The value a key ends up with: a dict merged into a dict is a shallow
      update of the old dict; any other value replaces the old one. */
  function MergeValue(prev: Option<Json>, v: Json): Json {
    if v.JObj? && prev.Some? && prev.value.JObj? then JObj(SetAll(prev.value.members, Items(v.members)))
    else v
  }

  /** One step of the merge loop over the user's items, from first to last. */
  function MergeAll(settings: seq<Member>, items: seq<Member>): seq<Member>
    decreases |items|
  {
    if |items| == 0 then settings
    else
      var acc := MergeAll(settings, items[..|items| - 1]);
      var last := items[|items| - 1];
      Set(acc, last.key, MergeValue(Lookup(acc, last.key), last.value))
  }

  /** Merging distinct keys settles each key on its own: a user key gets the
      merged value, any other key keeps its setting. */
  lemma {:induction false} MergeAllLookup(settings: seq<Member>, items: seq<Member>, k: string)
    requires DistinctKeys(items)
    ensures Lookup(MergeAll(settings, items), k)
         == if HasKey(items, k) then Some(MergeValue(Lookup(settings, k), Get(items, k))) else Lookup(settings, k)
    decreases |items|
  {
    if |items| > 0 {
      var init := items[..|items| - 1];
      var last := items[|items| - 1];
      assert items == init + [last];
      assert Keys(items) == Keys(init) + [last.key];
      assert DistinctKeys(init);
      MergeAllLookup(settings, init, k);
      if k == last.key {
        assert !HasKey(init, k) by {
          forall i | 0 <= i < |init|
            ensures Keys(init)[i] != k
          {
            assert init[i] == items[i];
          }
        }
        LookupDistinct(items, |items| - 1);
      } else {
        LookupAppend(init, last);
      }
    }
  }

  /** `load_settings`: the defaults, with a decoded dict merged in key by key.
      A missing or unreadable file, or a decoded value that is not a dict
      (whose `.items()` raises inside the `try`), leaves the defaults. */
  function LoadSettings(src: ConfigSource): (r: seq<Member>)
    ensures !(src.Decoded? && src.value.JObj?) ==> r == Defaults()
  {
    match src
    case Decoded(JObj(ms)) => MergeAll(Defaults(), Items(ms))
    case _ => Defaults()
  }

  /** The merge rule, key by key: a key the user leaves out keeps its
      default; a user dict under a key whose default is a dict updates that
      dict (user entries win, the rest stay); any other user value replaces
      the default or adds the key. */
  lemma LoadSettingsMerge(ms: seq<Member>, k: string)
    ensures !HasKey(ms, k) ==> Lookup(LoadSettings(Decoded(JObj(ms))), k) == Lookup(Defaults(), k)
    ensures HasKey(ms, k) && !(Get(ms, k).JObj? && Get(Defaults(), k).JObj?) ==>
      Lookup(LoadSettings(Decoded(JObj(ms))), k) == Some(Get(ms, k))
    ensures HasKey(ms, k) && Get(ms, k).JObj? && Get(Defaults(), k).JObj? ==>
      var merged := Lookup(LoadSettings(Decoded(JObj(ms))), k);
      merged.Some? && merged.value.JObj? &&
      forall j :: Lookup(merged.value.members, j)
                  == if HasKey(Get(ms, k).members, j) then Lookup(Get(ms, k).members, j)
                     else Lookup(Get(Defaults(), k).members, j)
  {
    var items := Items(ms);
    MergeAllLookup(Defaults(), items, k);
    assert HasKey(items, k) <==> HasKey(ms, k) by {
      assert (Lookup(items, k).None? <==> !HasKey(items, k)) && (Lookup(ms, k).None? <==> !HasKey(ms, k));
    }
    assert Get(items, k) == Get(ms, k);
  }

  /** The command-line flags that override settings; `None` when not given. */
  datatype Overrides = Overrides(locale: Option<string>, country: Option<string>, timeout: Option<int>)

  /** A flag value counts only when it is truthy: an empty string or a
      timeout of 0 is ignored. */
  predicate Given<T(==)>(flag: Option<T>, empty: T) {
    flag.Some? && flag.value != empty
  }

  /** `settings[key] = value` when there is a value, nothing otherwise. */
  function Override(settings: seq<Member>, key: string, value: Option<Json>): (r: seq<Member>)
    ensures Lookup(r, key) == if value.Some? then value else Lookup(settings, key)
    ensures forall k :: k != key ==> Lookup(r, k) == Lookup(settings, k)
  {
    if value.Some? then Set(settings, key, value.value) else settings
  }

  /** The CLI overrides of `main`, applied in order. */
  function ApplyOverrides(settings: seq<Member>, o: Overrides): (r: seq<Member>)
    ensures Lookup(r, "locale") == if Given(o.locale, "") then Some(JStr(o.locale.value)) else Lookup(settings, "locale")
    ensures Lookup(r, "country") == if Given(o.country, "") then Some(JStr(o.country.value)) else Lookup(settings, "country")
    ensures Lookup(r, "timeout") == if Given(o.timeout, 0) then Some(JInt(o.timeout.value)) else Lookup(settings, "timeout")
    ensures forall k :: k != "locale" && k != "country" && k != "timeout" ==> Lookup(r, k) == Lookup(settings, k)
  {
    var s1 := Override(settings, "locale", if Given(o.locale, "") then Some(JStr(o.locale.value)) else None);
    var s2 := Override(s1, "country", if Given(o.country, "") then Some(JStr(o.country.value)) else None);
    Override(s2, "timeout", if Given(o.timeout, 0) then Some(JInt(o.timeout.value)) else None)
  }

  // ---------------------------------------------------------------------
  // App ids

  /** A line that names an app: not blank and not a `#` comment once stripped. */
  predicate IsIdLine(line: string) {
    Strip(line) != "" && Strip(line)[0] != '#'
  }

  /** The stripped id lines, in order, repeats kept. */
  function IdLines(lines: seq<string>): seq<string>
    decreases |lines|
  {
    if |lines| == 0 then []
    else
      var last := lines[|lines| - 1];
      IdLines(lines[..|lines| - 1]) + (if IsIdLine(last) then [Strip(last)] else [])
  }

  /** Filtering lines keeps their order: the ids of two runs of lines are the
      ids of the first followed by those of the second. */
  lemma {:induction false} IdLinesAppend(a: seq<string>, b: seq<string>)
    ensures IdLines(a + b) == IdLines(a) + IdLines(b)
    decreases |b|
  {
    if |b| == 0 {
      assert a + b == a;
    } else {
      assert (a + b)[..|a + b| - 1] == a + b[..|b| - 1];
      IdLinesAppend(a, b[..|b| - 1]);
    }
  }

  /** Every id is a stripped, non-empty line that does not start with `#`. */
  lemma {:induction false} IdLinesWellFormed(lines: seq<string>)
    ensures forall i :: 0 <= i < |IdLines(lines)| ==>
      var id := IdLines(lines)[i];
      id != "" && id[0] != '#' && Strip(id) == id
    decreases |lines|
  {
    if |lines| > 0 {
      IdLinesWellFormed(lines[..|lines| - 1]);
      StripIdempotent(lines[|lines| - 1]);
    }
  }

  datatype LoadError = InputMissing | NoIds

  /** `load_app_ids`: the id lines of the input file's text, or an error
      when there is no file or no id in it. */
  method LoadAppIds(file: Option<string>) returns (r: Result<seq<string>, LoadError>)
    ensures file.None? ==> r == Err(InputMissing)
    ensures file.Some? ==> (r == Err(NoIds) <==> IdLines(SplitLines(file.value)) == [])
    ensures r.Ok? ==> file.Some? && r.value == IdLines(SplitLines(file.value)) && |r.value| > 0
  {
    if file.None? {
      return Err(InputMissing);
    }
    var lines := SplitLines(file.value);
    var ids: seq<string> := [];
    var i := 0;
    while i < |lines|
      invariant 0 <= i <= |lines|
      invariant ids == IdLines(lines[..i])
    {
      var line := Strip(lines[i]);
      assert lines[..i + 1][..i] == lines[..i];
      if line != "" && line[0] != '#' {
        ids := ids + [line];
      }
      i := i + 1;
    }
    assert lines[..i] == lines;
    if |ids| == 0 {
      return Err(NoIds);
    }
    return Ok(ids);
  }

  // ---------------------------------------------------------------------
  // The batch loop

  /** Why one app produced no record. */
  datatype AppFailure = ParseFailed(pe: ParseError) | CleanFailed(ce: CleanError)

  /** One iteration of the loop: fetch and parse, then normalize the record. */
  function ProcessApp(appId: string, fetched: Option<Page>): (r: Result<Record, AppFailure>)
    ensures r.Ok? ==> r.value.appId == JStr(appId)
    ensures appId == "" ==> r == Err(ParseFailed(EmptyAppId))
    ensures r.Ok? <==> appId != "" && fetched.Some? && ParseAppData(fetched.value, appId).Ok?
                       && !TooLargeForFloat(ParseAppData(fetched.value, appId).value.rating)
  {
    match GetAppData(appId, fetched)
    case Err(e) => Err(ParseFailed(e))
    case Ok(raw) =>
      ParsedRecordNormalizes(fetched.value, appId);
      match Normalize(ToDict(raw))
      case Err(e) => Err(CleanFailed(e))
      case Ok(rec) =>
        FromToDict(raw);
        Ok(rec)
  }

  /** A record the loop keeps is normalized. */
  lemma ProcessAppNormalized(appId: string, fetched: Option<Page>)
    ensures ProcessApp(appId, fetched).Ok? ==> IsNormalized(ProcessApp(appId, fetched).value)
  {
    if GetAppData(appId, fetched).Ok? {
      var raw := GetAppData(appId, fetched).value;
      var c := Normalize(ToDict(raw));
      assert c.Ok? ==> IsNormalized(c.value);
    }
  }

  /** `f` applied to each pair of the two aligned sequences, in order. */
  function Each<A, B, R>(f: (A, B) -> R, xs: seq<A>, ys: seq<B>): (r: seq<R>)
    requires |ys| == |xs|
    ensures |r| == |xs|
    ensures forall i :: 0 <= i < |xs| ==> r[i] == f(xs[i], ys[i])
  {
    seq(|xs|, i requires 0 <= i < |xs| => f(xs[i], ys[i]))
  }

  /** Mapping over two runs is mapping over each. */
  lemma EachAppend<A, B, R>(f: (A, B) -> R, a: seq<A>, pa: seq<B>, b: seq<A>, pb: seq<B>)
    requires |pa| == |a| && |pb| == |b|
    ensures Each(f, a + b, pa + pb) == Each(f, a, pa) + Each(f, b, pb)
  {
    forall i | 0 <= i < |a| + |b|
      ensures Each(f, a + b, pa + pb)[i] == (Each(f, a, pa) + Each(f, b, pb))[i]
    {
      if i >= |a| {
        assert (a + b)[i] == b[i - |a|] && (pa + pb)[i] == pb[i - |a|];
      }
    }
  }

  /** The values of the successful outcomes, in order. */
  function Oks<T, E>(rs: seq<Result<T, E>>): (r: seq<T>)
    ensures |r| <= |rs|
    decreases |rs|
  {
    if |rs| == 0 then []
    else
      var n := |rs| - 1;
      Oks(rs[..n]) + (if rs[n].Ok? then [rs[n].value] else [])
  }

  /** Every kept value is the value of some successful outcome. */
  lemma {:induction false} OksFrom<T, E>(rs: seq<Result<T, E>>, j: int)
    requires 0 <= j < |Oks(rs)|
    ensures exists i :: 0 <= i < |rs| && rs[i] == Ok(Oks(rs)[j])
    decreases |rs|
  {
    var n := |rs| - 1;
    if j < |Oks(rs[..n])| {
      OksFrom(rs[..n], j);
      var i :| 0 <= i < n && rs[..n][i] == Ok(Oks(rs[..n])[j]);
      assert rs[i] == Ok(Oks(rs)[j]);
    } else {
      assert rs[n] == Ok(Oks(rs)[j]);
    }
  }

  /** Keeping the successes of two runs is keeping those of each. */
  lemma {:induction false} OksAppend<T, E>(a: seq<Result<T, E>>, b: seq<Result<T, E>>)
    ensures Oks(a + b) == Oks(a) + Oks(b)
    decreases |b|
  {
    if |b| == 0 {
      assert a + b == a;
    } else {
      var n := |b| - 1;
      assert (a + b)[..|a| + n] == a + b[..n];
      OksAppend(a, b[..n]);
    }
  }

  /** The values of the runs of `f` that succeed, in input order. */
  function Kept<A, B, T, E>(f: (A, B) -> Result<T, E>, xs: seq<A>, ys: seq<B>): seq<T>
    requires |ys| == |xs|
  {
    Oks(Each(f, xs, ys))
  }

  /** A failing run only drops its own value: what two runs keep together is
      what the first keeps followed by what the second keeps. */
  lemma KeptAppend<A, B, T, E>(f: (A, B) -> Result<T, E>, a: seq<A>, pa: seq<B>, b: seq<A>, pb: seq<B>)
    requires |pa| == |a| && |pb| == |b|
    ensures Kept(f, a + b, pa + pb) == Kept(f, a, pa) + Kept(f, b, pb)
  {
    EachAppend(f, a, pa, b, pb);
    OksAppend(Each(f, a, pa), Each(f, b, pb));
  }

  /** One run keeps its value when it succeeds and nothing otherwise. */
  lemma KeptOne<A, B, T, E>(f: (A, B) -> Result<T, E>, x: A, y: B)
    ensures Kept(f, [x], [y]) == if f(x, y).Ok? then [f(x, y).value] else []
  {
    var rs := Each(f, [x], [y]);
    assert rs[..0] == [];
  }

  /** The loop of `main`, for any per-item step `f`: every item is tried, in
      order, and a failure skips only that item. */
  method Collect<A, B, T, E>(f: (A, B) -> Result<T, E>, xs: seq<A>, ys: seq<B>) returns (results: seq<T>)
    requires |ys| == |xs|
    ensures results == Kept(f, xs, ys)
  {
    results := [];
    var i := 0;
    while i < |xs|
      invariant 0 <= i <= |xs|
      invariant results == Kept(f, xs[..i], ys[..i])
    {
      var outcome := f(xs[i], ys[i]);
      KeptAppend(f, xs[..i], ys[..i], [xs[i]], [ys[i]]);
      KeptOne(f, xs[i], ys[i]);
      assert xs[..i] + [xs[i]] == xs[..i + 1] && ys[..i] + [ys[i]] == ys[..i + 1];
      if outcome.Ok? {
        results := results + [outcome.value];
      }
      i := i + 1;
    }
    assert xs[..i] == xs && ys[..i] == ys;
  }

  /** The records of the ids that succeed, in input order. */
  function Successes(ids: seq<string>, pages: seq<Option<Page>>): seq<Record>
    requires |pages| == |ids|
  {
    Kept(ProcessApp, ids, pages)
  }

  /** A failing id only drops its own record: the results of a batch are those
      of its first part followed by those of the rest. */
  lemma SuccessesAppend(a: seq<string>, pa: seq<Option<Page>>, b: seq<string>, pb: seq<Option<Page>>)
    requires |pa| == |a| && |pb| == |b|
    ensures Successes(a + b, pa + pb) == Successes(a, pa) + Successes(b, pb)
  {
    KeptAppend(ProcessApp, a, pa, b, pb);
  }

  /** Every record a batch keeps is normalized and carries the id it was
      fetched for. */
  lemma SuccessesNormalized(ids: seq<string>, pages: seq<Option<Page>>)
    requires |pages| == |ids|
    ensures forall j :: 0 <= j < |Successes(ids, pages)| ==>
      IsNormalized(Successes(ids, pages)[j]) && Successes(ids, pages)[j].appId.JStr? && Successes(ids, pages)[j].appId.s in ids
  {
    var rs := Each(ProcessApp, ids, pages);
    forall j | 0 <= j < |Oks(rs)|
      ensures IsNormalized(Oks(rs)[j]) && Oks(rs)[j].appId.JStr? && Oks(rs)[j].appId.s in ids
    {
      OksFrom(rs, j);
      var i :| 0 <= i < |rs| && rs[i] == Ok(Oks(rs)[j]);
      assert ProcessApp(ids[i], pages[i]).Ok?;
      ProcessAppNormalized(ids[i], pages[i]);
    }
  }

  /** The loop's outcome: the successful records, or a fatal error when there
      are none. */
  datatype BatchError = NothingExtracted

  /** The loop of `main` over the ids; `pages[i]` is what fetching the page
      of `ids[i]` gave. Every id is tried, a failure skips only that id, the
      records kept are normalized, and an empty result is fatal. */
  method RunBatch(ids: seq<string>, pages: seq<Option<Page>>) returns (r: Result<seq<Record>, BatchError>)
    requires |pages| == |ids|
    ensures r.Err? <==> Successes(ids, pages) == []
    ensures r.Ok? ==> r.value == Successes(ids, pages)
    ensures r.Ok? ==> forall i :: 0 <= i < |r.value| ==> IsNormalized(r.value[i])
  {
    var results := Collect(ProcessApp, ids, pages);
    SuccessesNormalized(ids, pages);
    if |results| == 0 {
      return Err(NothingExtracted);
    }
    return Ok(results);
  }

  // ---------------------------------------------------------------------
  // Parser and cleaner together

  /** The parser's trigger words are the cleaner's keywords plus "contains ads". */
  lemma TriggersExtendKeywords(text: string)
    ensures MentionsAny(text, ParserTriggers) <==> MentionsAny(text, CleanerKeywords) || Contains(text, "contains ads")
  {
    if MentionsAny(text, ParserTriggers) {
      var k :| 0 <= k < |ParserTriggers| && Contains(text, ParserTriggers[k]);
      if k < 3 {
        assert ParserTriggers[k] == CleanerKeywords[k];
      }
    }
    if MentionsAny(text, CleanerKeywords) {
      var k :| 0 <= k < |CleanerKeywords| && Contains(text, CleanerKeywords[k]);
      assert ParserTriggers[k] == CleanerKeywords[k];
    }
    if Contains(text, "contains ads") {
      assert Contains(text, ParserTriggers[3]);
    }
  }

  /** The one place the parser and the cleaner disagree: a description that
      mentions "contains ads" and no purchase keyword marks in-app purchases
      for the parser, and not for the cleaner. */
  lemma AdsOnlyDisagree(v: Json, text: string)
    requires !v.JBool? && !(v.JList? && |v.items| > 0)
    requires Contains(Lower(text), "contains ads") && !MentionsAny(Lower(text), CleanerKeywords)
    ensures NormalizeInAppPurchases(v, JStr(text)) == Ok(JBool(false))
    ensures InAppOf(JStr(text)) == Ok(true)
  {
    TriggersExtendKeywords(Lower(text));
  }

  /** The parser's screenshot rule and the cleaner's agree on every JSON-LD
      object except one whose `screenshot` is an explicit null, which the
      parser wraps as `[None]` and the cleaner would turn into `[]`. */
  lemma ScreenshotRulesAgree(ld: seq<Member>)
    ensures ScreenshotsOf(ld) == NormalizeScreenshots(Get(ld, "screenshot"))
        <==> !(HasKey(ld, "screenshot") && Get(ld, "screenshot").JNull?)
  {
  }

  /** A record the parser derived survives normalization unless its rating
      is an int too large for a float; then it keeps its id, its in-app
      purchase flag (so "contains ads" still counts) and its null installs. */
  lemma ParsedRecordNormalizes(page: Page, appId: string)
    requires ParseAppData(page, appId).Ok?
    ensures Normalize(ToDict(ParseAppData(page, appId).value)).Ok? <==> !TooLargeForFloat(ParseAppData(page, appId).value.rating)
    ensures Normalize(ToDict(ParseAppData(page, appId).value)).Ok? ==>
            var raw := ParseAppData(page, appId).value;
            var rec := Normalize(ToDict(raw)).value;
            rec.appId == JStr(appId) && rec.inAppPurchases == raw.inAppPurchases && rec.installs == JNull
  {
    var raw := ParseAppData(page, appId).value;
    FromToDict(raw);
  }
}

=== FILE: data_cleaner.dfy ===
/** The record normalizer: turns a loosely typed dict into a record with
    exactly the expected fields, each coerced to its schema type. */
module DataCleaner {
  import opened Wrappers
  import opened Text
  import opened JsonValue
  import opened AppRecord

  /** The two ways normalization raises: `float()` on an int too large for a
      float (an `OverflowError`, which `_to_float` does not catch), and
      `.lower()` on a description that is truthy but not a string. */
  datatype CleanError = IntTooLargeForFloat | DescriptionNotText

  /** The least magnitude `float(n)` rejects for an int `n`: `2^1024 - 2^970`,
      halfway between the largest double and `2^1024`, which rounds up. */
  const FloatLimit: nat := 179769313486231580793728971405303415079934132710037826936173778980444968292764750946649017977587207096330286416692887910946555547851940402630657488671505820681908902000708383676273854845817711531764475730270069855571366959622842914819860834936475292719074168444365510704342711559699508093042880177904174497792

  /** An int that `float()` cannot convert. */
  predicate TooLargeForFloat(v: Json) {
    v.JInt? && Abs(v.i) >= FloatLimit
  }

  // ---------------------------------------------------------------------
  // Numbers

  /** `_to_float`: native numbers (and booleans, which are ints in Python)
      convert directly, and an int beyond the float range raises; anything
      else goes through its text with every `,` read as a decimal point, and
      text that does not parse gives `None`. */
  function ToFloat(v: Json): (r: Result<Option<Dec>, CleanError>)
    ensures r.Err? <==> TooLargeForFloat(v)
    ensures r.Err? ==> r.error == IntTooLargeForFloat
    ensures v.JNull? ==> r == Ok(None)
    ensures v.JInt? && !TooLargeForFloat(v) ==> r == Ok(Some(Dec(v.i, 0)))
    ensures v.JFloat? ==> r == Ok(Some(v.f))
    ensures v.JBool? ==> r == Ok(Some(Dec(if v.b then 1 else 0, 0)))
  {
    match v
    case JNull => Ok(None)
    case JBool(b) => Ok(Some(Dec(if b then 1 else 0, 0)))
    case JInt(n) => if Abs(n) >= FloatLimit then Err(IntTooLargeForFloat) else Ok(Some(Dec(n, 0)))
    case JFloat(d) => Ok(Some(d))
    case JStr(s) => Ok(ParseFloat(FloatCandidate(s)))
    case _ => Ok(ParseFloat(FloatCandidate(Repr(v))))
  }

  /** The text `_to_float` hands to `float()`: every `,` read as a point. */
  function FloatCandidate(s: string): (r: string)
    ensures |r| == |s|
    ensures forall i :: 0 <= i < |s| ==> s[i] != ',' ==> r[i] == s[i]
  {
    ReplaceChar(s, ',', '.')
  }

  /** A float's own text reads back as that float. */
  lemma ToFloatReadsFloatText(d: Dec)
    ensures ToFloat(JStr(FloatText(d))) == Ok(Some(Canon(d)))
  {
    var t := FloatText(d);
    assert ',' !in t;
    ReplaceCharAbsent(t, ',', '.');
    FloatTextRoundTrip(d);
    ToFloatOfText(t);
  }

  /** Lists and dicts never convert: their text starts with a bracket. */
  lemma ToFloatContainerIsNone(v: Json)
    requires v.JList? || v.JObj?
    ensures ToFloat(v) == Ok(None)
  {
    var s := Repr(v);
    assert s[0] == '[' || s[0] == '{';
    var t := FloatCandidate(s);
    assert t[0] == s[0];
    assert t[0] in t;
    assert !(IsDigit(t[0]) || IsSpace(t[0]) || t[0] == '+' || t[0] == '-' || t[0] == '.');
    assert ToFloat(v) == Ok(ParseFloat(t));
  }

  /** `_to_int`: native ints, and booleans with them, pass through unchanged;
      anything else goes through its text with every `,` and `+` removed,
      stripped, cut after the first `:` if there is one, then parsed, and
      text that does not parse gives `None`. */
  function ToInt(v: Json): (r: Json)
    ensures r.JNull? || r.JInt? || r.JBool?
    ensures v.JInt? || v.JBool? ==> r == v
    ensures v.JNull? ==> r == JNull
  {
    match v
    case JNull => JNull
    case JBool(_) => v
    case JInt(_) => v
    case JStr(s) => IntOfText(s)
    case _ => IntOfText(Repr(v))
  }

  /** The text branch of `_to_int`; a `ValueError` becomes `None`. */
  function IntOfText(s: string): (r: Json)
    ensures r.JNull? || r.JInt?
  {
    match ParseInt(IntCandidate(s))
    case Some(n) => JInt(n)
    case None => JNull
  }

  /** The text `_to_int` hands to `int()`. */
  function IntCandidate(s: string): string {
    AfterFirst(Strip(RemoveChar(RemoveChar(s, ','), '+')), ':')
  }

  /** A character that survives `IntCandidate` and that `int()` rejects makes
      the parse fail. */
  lemma IntCandidateKeeps(s: string, x: char)
    requires x in s && x != ',' && x != '+' && x != ':' && !IsSpace(x)
    requires ':' !in s
    ensures x in IntCandidate(s)
  {
    var t := RemoveChar(RemoveChar(s, ','), '+');
    StripChars(t);
  }

  /** Text holding a character that `int()` rejects and `_to_int` keeps
      does not convert. */
  lemma IntOfTextRejects(s: string, x: char)
    requires x in s && x != ',' && x != '+' && x != ':' && x != '-' && !IsSpace(x) && !IsDigit(x)
    requires ':' !in s
    ensures IntOfText(s) == JNull
  {
    IntCandidateKeeps(s, x);
  }

  /** Floats never convert to int: the text of a float holds a `.`. */
  lemma ToIntFloatIsNull(d: Dec)
    ensures ToInt(JFloat(d)) == JNull
  {
    var s := Repr(JFloat(d));
    assert s == FloatText(d);
    assert '.' in s && ':' !in s;
    IntOfTextRejects(s, '.');
    ToIntOfOther(JFloat(d));
  }

  /** A value that is not text, a number, a bool or `None` goes to `int()`
      as its repr. */
  lemma ToIntOfOther(v: Json)
    requires v.JFloat? || v.JList? || v.JObj?
    ensures ToInt(v) == IntOfText(Repr(v))
  {
  }

  /** The decimal text of an integer reads back as that integer. */
  lemma ToIntReadsIntText(n: int)
    ensures ToInt(JStr(IntText(n))) == JInt(n)
  {
    var t := IntText(n);
    IntTextRoundTrip(n);
    ToIntOfPlain(t, n);
  }

  /** Text with no `,`, `+` or `:` and no surrounding whitespace reaches
      `int()` unchanged. */
  lemma ToIntOfPlain(t: string, k: int)
    requires ',' !in t && '+' !in t && ':' !in t
    requires |t| == 0 || (!IsSpace(t[0]) && !IsSpace(t[|t| - 1]))
    requires ParseInt(t) == Some(k)
    ensures ToInt(JStr(t)) == JInt(k)
  {
    RemoveCharAbsent(t, ',');
    RemoveCharAbsent(t, '+');
    StripNoop(t);
    assert IntCandidate(t) == t;
  }

  // ---------------------------------------------------------------------
  // Text fields

  /** `v.strip() if isinstance(v, str) else v`. */
  function TrimIfText(v: Json): (r: Json)
    ensures v.JStr? <==> r.JStr?
    ensures v.JStr? ==> r == JStr(Strip(v.s)) && Strip(r.s) == r.s
    ensures !v.JStr? ==> r == v
  {
    if v.JStr? then StripIdempotent(v.s); JStr(Strip(v.s)) else v
  }

  /** `_normalize_installs`: `None`, or the stripped text when it is not empty. */
  function NormalizeInstalls(v: Json): (r: Json)
    ensures r.JNull? || (r.JStr? && r.s != "" && Strip(r.s) == r.s)
    ensures v.JNull? ==> r.JNull?
    ensures v.JStr? ==> (r.JNull? <==> Strip(v.s) == "")
    ensures !v.JNull? ==> (r.JNull? <==> Strip(Str(v)) == "")
    ensures r.JStr? ==> r.s == Strip(Str(v))
  {
    if v.JNull? then JNull
    else
      var s := Strip(Str(v));
      StripIdempotent(Str(v));
      if s == "" then JNull else JStr(s)
  }

  /** The stripped price texts that read as free. */
  predicate IsFreeText(s: string) {
    s == "0" || s == "0.0" || s == "Free" || s == ""
  }

  /** A cleaned price: never empty, never padded, never a bare zero. */
  predicate IsPriceText(r: string) {
    r != "" && Strip(r) == r && r != "0" && r != "0.0"
  }

  /** The two fixed price words are cleaned prices. */
  lemma PriceWords()
    ensures IsPriceText("Unknown") && IsPriceText("Free")
  {
    StripWord("Unknown");
    StripWord("Free");
  }

  /** The price field: `"Unknown"` for `None`, `"Free"` for a free text, and
      the stripped text otherwise. It is never empty and never null. */
  function NormalizePrice(v: Json): (r: string)
    ensures IsPriceText(r)
    ensures v.JNull? ==> r == "Unknown"
    ensures !v.JNull? ==> (r == "Free" <==> IsFreeText(Strip(Str(v))))
    ensures !v.JNull? && r != "Free" ==> r == Strip(Str(v))
  {
    PriceWords();
    if v.JNull? then "Unknown" else PriceOfText(Str(v))
  }

  /** The price of a non-null value, from its text. */
  function PriceOfText(t: string): (r: string)
    ensures IsPriceText(r)
    ensures r == "Free" <==> IsFreeText(Strip(t))
    ensures r != "Free" ==> r == Strip(t)
  {
    PriceWords();
    var s := Strip(t);
    StripIdempotent(t);
    if IsFreeText(s) then "Free" else s
  }

  /** The description phrases `_normalize_in_app_purchases` looks for. */
  const CleanerKeywords: seq<string> := ["in-app purchases", "offers in-app purchases", "offers in app purchases"]

  /** `_normalize_in_app_purchases`: a boolean or a non-empty list passes
      through; otherwise the answer is whether the lower-cased description
      mentions a purchase keyword. The description is read only then, and a
      truthy non-string description makes `.lower()` raise. */
  function NormalizeInAppPurchases(v: Json, description: Json): (r: Result<Json, CleanError>)
    ensures v.JBool? || (v.JList? && |v.items| > 0) ==> r == Ok(v)
    ensures r.Ok? ==> r.value.JBool? || (r.value.JList? && |r.value.items| > 0)
    ensures r.Err? <==> !v.JBool? && !(v.JList? && |v.items| > 0) && Truthy(description) && !description.JStr?
    ensures r.Ok? && !v.JBool? && !(v.JList? && |v.items| > 0) ==>
      r.value == JBool(description.JStr? && MentionsAny(Lower(description.s), CleanerKeywords))
  {
    if v.JBool? then Ok(v)
    else if v.JList? && |v.items| > 0 then Ok(v)
    else
      var d := Or(description, JStr(""));
      if d.JStr? then Ok(JBool(MentionsAny(Lower(d.s), CleanerKeywords))) else Err(DescriptionNotText)
  }

  /** A description naming in-app purchases sets the flag, whatever the case
      of its other letters. */
  lemma InAppFromDescription()
    ensures NormalizeInAppPurchases(JNull, JStr("This app offers in-app purchases.")) == Ok(JBool(true))
  {
    var text := "This app offers in-app purchases.";
    assert text[16..32] == CleanerKeywords[0];
    LowerOccurs(text, CleanerKeywords[0], 16);
  }

  /** Screenshots always end up a list: a list as it is, `None` as `[]`, and
      any other value as a one-element list. */
  function NormalizeScreenshots(v: Json): (r: Json)
    ensures r.JList?
    ensures v.JList? ==> r == v
    ensures v.JNull? ==> r == JList([])
    ensures !v.JList? && !v.JNull? ==> r.items == [v]
  {
    if v.JList? then v else if v.JNull? then JList([]) else JList([v])
  }

  // ---------------------------------------------------------------------
  // The record

  /** A text field after trimming: a string without surrounding whitespace,
      or any value that is not a string. */
  predicate IsTrimmed(v: Json) {
    v.JStr? ==> Strip(v.s) == v.s
  }

  /** The schema a normalized record satisfies. */
  predicate IsNormalized(r: Record) {
    && IsTrimmed(r.title) && IsTrimmed(r.developer) && IsTrimmed(r.category)
    && IsTrimmed(r.description) && IsTrimmed(r.iconUrl) && IsTrimmed(r.developerWebsite)
    && (r.rating.JNull? || r.rating.JFloat?)
    && (r.reviewsCount.JNull? || r.reviewsCount.JInt? || r.reviewsCount.JBool?)
    && (r.installs.JNull? || (r.installs.JStr? && r.installs.s != "" && Strip(r.installs.s) == r.installs.s))
    && r.price.JStr? && IsPriceText(r.price.s)
    && (r.inAppPurchases.JBool? || (r.inAppPurchases.JList? && |r.inAppPurchases.items| > 0))
    && r.screenshots.JList?
  }

  /** The truthy, non-string description that would make the in-app purchase
      heuristic raise, when the record carries no purchase signal of its own. */
  predicate BreaksHeuristic(iap: Json, description: Json) {
    !iap.JBool? && !(iap.JList? && |iap.items| > 0) && Truthy(description) && !description.JStr?
  }

  /** The rating as stored: the float, or null when there is none. */
  function FloatOrNull(x: Option<Dec>): (r: Json)
    ensures r.JNull? || r.JFloat?
    ensures r.JNull? <==> x.None?
  {
    if x.Some? then JFloat(x.value) else JNull
  }

  /** `normalize_app_data`: reads every expected field of `raw` (missing keys
      as `None`), trims the text fields, coerces rating and review count,
      cleans installs, price, in-app purchases and screenshots, and copies
      `appId`, `releaseDate`, `lastUpdated` and `version` unchanged. */
  function Normalize(raw: seq<Member>): (r: Result<Record, CleanError>)
    ensures r.Err? <==> TooLargeForFloat(Get(raw, "rating")) || BreaksHeuristic(Get(raw, "inAppPurchases"), Get(raw, "description"))
    ensures r.Err? ==> r.error == if TooLargeForFloat(Get(raw, "rating")) then IntTooLargeForFloat else DescriptionNotText
    ensures r.Ok? ==> IsNormalized(r.value)
    ensures r.Ok? ==> r.value.appId == Get(raw, "appId") && r.value.version == Get(raw, "version")
    ensures r.Ok? ==> r.value.releaseDate == Get(raw, "releaseDate") && r.value.lastUpdated == Get(raw, "lastUpdated")
    ensures r.Ok? ==> r.value.title == TrimIfText(Get(raw, "title")) && r.value.developer == TrimIfText(Get(raw, "developer"))
    ensures r.Ok? ==> r.value.category == TrimIfText(Get(raw, "category")) && r.value.rating == FloatOrNull(ToFloat(Get(raw, "rating")).value)
    ensures r.Ok? ==> r.value.reviewsCount == ToInt(Get(raw, "reviewsCount")) && r.value.installs == NormalizeInstalls(Get(raw, "installs"))
    ensures r.Ok? ==> r.value.price == JStr(NormalizePrice(Get(raw, "price"))) && r.value.screenshots == NormalizeScreenshots(Get(raw, "screenshots"))
    ensures r.Ok? ==> r.value.iconUrl == TrimIfText(Get(raw, "iconUrl")) && r.value.developerWebsite == TrimIfText(Get(raw, "developerWebsite"))
    ensures r.Ok? ==> r.value.description == TrimIfText(Get(raw, "description"))
    ensures r.Ok? ==> r.value.inAppPurchases == NormalizeInAppPurchases(Get(raw, "inAppPurchases"), TrimIfText(Get(raw, "description"))).value
  {
    var c := FromDict(raw);
    assert Values(c)[0] == Get(raw, "appId") && Values(c)[8] == Get(raw, "inAppPurchases");
    assert Values(c)[1] == Get(raw, "title") && Values(c)[2] == Get(raw, "developer");
    assert Values(c)[3] == Get(raw, "category") && Values(c)[4] == Get(raw, "rating");
    assert Values(c)[5] == Get(raw, "reviewsCount") && Values(c)[6] == Get(raw, "installs");
    assert Values(c)[7] == Get(raw, "price");
    assert Values(c)[9] == Get(raw, "description") && Values(c)[10] == Get(raw, "releaseDate");
    assert Values(c)[11] == Get(raw, "lastUpdated") && Values(c)[12] == Get(raw, "version");
    assert Values(c)[13] == Get(raw, "screenshots") && Values(c)[14] == Get(raw, "iconUrl");
    assert Values(c)[15] == Get(raw, "developerWebsite");
    NormalizeFields(c)
  }

  /** The cleaning of `normalize_app_data`, on the fields once read. */
  function NormalizeFields(c: Record): (r: Result<Record, CleanError>)
    ensures r.Err? <==> TooLargeForFloat(c.rating) || BreaksHeuristic(c.inAppPurchases, c.description)
    ensures r.Err? ==> r.error == if TooLargeForFloat(c.rating) then IntTooLargeForFloat else DescriptionNotText
    ensures r.Ok? ==> IsNormalized(r.value)
    ensures r.Ok? ==> r.value.appId == c.appId && r.value.version == c.version
    ensures r.Ok? ==> r.value.releaseDate == c.releaseDate && r.value.lastUpdated == c.lastUpdated
    ensures r.Ok? ==> r.value.title == TrimIfText(c.title) && r.value.developer == TrimIfText(c.developer)
    ensures r.Ok? ==> r.value.category == TrimIfText(c.category) && r.value.rating == FloatOrNull(ToFloat(c.rating).value)
    ensures r.Ok? ==> r.value.reviewsCount == ToInt(c.reviewsCount) && r.value.installs == NormalizeInstalls(c.installs)
    ensures r.Ok? ==> r.value.price == JStr(NormalizePrice(c.price)) && r.value.screenshots == NormalizeScreenshots(c.screenshots)
    ensures r.Ok? ==> r.value.iconUrl == TrimIfText(c.iconUrl) && r.value.developerWebsite == TrimIfText(c.developerWebsite)
    ensures r.Ok? ==> r.value.description == TrimIfText(c.description)
    ensures r.Ok? ==> r.value.inAppPurchases == NormalizeInAppPurchases(c.inAppPurchases, TrimIfText(c.description)).value
  {
    var description := TrimIfText(c.description);
    assert description.JStr? <==> c.description.JStr?;
    assert !description.JStr? ==> description == c.description;
    var rating :- ToFloat(c.rating);
    var iap :- NormalizeInAppPurchases(c.inAppPurchases, description);
    Ok(Record(
      appId := c.appId,
      title := TrimIfText(c.title),
      developer := TrimIfText(c.developer),
      category := TrimIfText(c.category),
      rating := FloatOrNull(rating),
      reviewsCount := ToInt(c.reviewsCount),
      installs := NormalizeInstalls(c.installs),
      price := JStr(NormalizePrice(c.price)),
      inAppPurchases := iap,
      description := description,
      releaseDate := c.releaseDate,
      lastUpdated := c.lastUpdated,
      version := c.version,
      screenshots := NormalizeScreenshots(c.screenshots),
      iconUrl := TrimIfText(c.iconUrl),
      developerWebsite := TrimIfText(c.developerWebsite)))
  }

  // ---------------------------------------------------------------------
  // Properties of the coercions

  /** Thousands separators and a trailing `+`, as in `"1,000,000+"`, do not
      stop a count from reading as its number. */
  lemma ToIntIgnoresSeparators(s: string, n: int)
    requires RemoveChar(RemoveChar(s, ','), '+') == IntText(n)
    ensures ToInt(JStr(s)) == JInt(n)
  {
    var t := IntText(n);
    IntTextRoundTrip(n);
    StripNoop(t);
    assert ':' !in t;
    assert IntCandidate(s) == t;
    ToIntOfCandidate(s, n);
  }

  /** The text branch of `_to_int` yields whatever `int()` makes of the candidate. */
  lemma ToIntOfCandidate(s: string, k: int)
    requires ParseInt(IntCandidate(s)) == Some(k)
    ensures ToInt(JStr(s)) == JInt(k)
  {
    assert ToInt(JStr(s)) == IntOfText(s);
  }

  /** A labelled count such as `"UserDownloads:1000000"` reads as the number
      after the first colon. */
  lemma ToIntLabelled(tag: string, n: int)
    requires ':' !in tag
    ensures ToInt(JStr(tag + ":" + IntText(n))) == JInt(n)
  {
    var t := IntText(n);
    IntTextRoundTrip(n);
    LabelledCandidate(tag, t);
    ToIntOfCandidate(tag + ":" + t, n);
  }

  /** Removing separators, stripping and cutting at the first colon leave the
      number of a labelled text. */
  lemma LabelledCandidate(tag: string, t: string)
    requires ':' !in tag && ',' !in t && '+' !in t
    requires |t| > 0 && !IsSpace(t[|t| - 1])
    ensures IntCandidate(tag + ":" + t) == t
  {
    var l := RemoveChar(RemoveChar(tag, ','), '+');
    RemoveColonFree(tag, t, ',');
    RemoveColonFree(RemoveChar(tag, ','), t, '+');
    StripLabelled(l, t);
  }

  /** Removing a character other than `:` from `tag:t`, where `t` lacks it,
      touches only the tag. */
  lemma RemoveColonFree(tag: string, t: string, c: char)
    requires c != ':' && c !in t
    ensures RemoveChar(tag + ":" + t, c) == RemoveChar(tag, c) + ":" + t
  {
    RemoveCharAppend(tag + ":", t, c);
    RemoveCharAppend(tag, ":", c);
    RemoveCharAbsent(t, c);
    RemoveCharAbsent(":", c);
  }

  lemma StripLabelled(l: string, t: string)
    requires ':' !in l
    requires |t| > 0 && !IsSpace(t[|t| - 1])
    ensures AfterFirst(Strip(l + ":" + t), ':') == t
  {
    var x := l + ":" + t;
    var y := TrimStart(x);
    var j := |x| - |y|;
    assert x[|l|] == ':';
    assert j <= |l|;
    var l' := l[j..];
    assert y == l' + ":" + t;
    assert y[|y| - 1] == t[|t| - 1];
    assert TrimEnd(y) == y;
    assert ':' !in l' by {
      forall i | 0 <= i < |l'| ensures l'[i] != ':' { assert l'[i] == l[j + i]; assert l[j + i] in l; }
    }
    AfterFirstSplit(l', ':', t);
  }

  /** `_to_int` splits at the FIRST colon only: with a second colon, the
      remainder handed to `int()` still holds it, so `"a:b:3"` gives `None`. */
  lemma ToIntTwoColons(a: string, b: string, c: string)
    requires ':' !in a
    ensures ToInt(JStr(a + ":" + b + ":" + c)) == JNull
  {
    var s := a + ":" + b + ":" + c;
    CandidateKeepsSecondColon(a, b, c);
    ParseIntRejects(IntCandidate(s), ':');
    IntOfTextNone(s);
  }

  /** Text whose candidate `int()` rejects converts to `None`. */
  lemma IntOfTextNone(s: string)
    requires ParseInt(IntCandidate(s)).None?
    ensures ToInt(JStr(s)) == JNull
  {
    assert ToInt(JStr(s)) == IntOfText(s);
  }

  /** After the separators go, `a:b:c` is `a':b':c'`; the colon after `b'`
      survives the strip and the first-colon cut. */
  lemma CandidateKeepsSecondColon(a: string, b: string, c: string)
    requires ':' !in a
    ensures ':' in IntCandidate(a + ":" + b + ":" + c)
  {
    var ra := Unsep(a);
    var x := Unsep(a + ":" + b + ":" + c);
    UnsepColons(a, b, c);
    var p2 := |ra| + 1 + |Unsep(b)|;
    assert x[..|ra|] == ra && x[|ra|] == ':' && x[p2] == ':';
    ColonSurvives(x, |ra|, p2);
  }

  /** When `x[..p1]` holds no colon and `x[p1]` and `x[p2]` both are colons,
      what follows the first colon of `x.strip()` still holds a colon. */
  lemma ColonSurvives(x: string, p1: nat, p2: nat)
    requires p1 < p2 < |x| && x[p1] == ':' && x[p2] == ':' && ':' !in x[..p1]
    ensures ':' in AfterFirst(Strip(x), ':')
  {
    var i := StripOffset(x);
    ColonsTrimmed(x, Strip(x), i, p1, p2);
  }

  /** The same for any `t` that is `x` with only whitespace cut from its ends. */
  lemma ColonsTrimmed(x: string, t: string, i: int, p1: nat, p2: nat)
    requires p1 < p2 < |x| && x[p1] == ':' && x[p2] == ':' && ':' !in x[..p1]
    requires TrimmedAt(x, t, i)
    ensures ':' in AfterFirst(t, ':')
  {
    assert i <= p1 by { assert !IsSpace(x[p1]); }
    assert p2 < i + |t| by { assert !IsSpace(x[p2]); }
    assert t[..p1 - i] == x[..p1][i..];
    SliceLacks(x[..p1], i, ':');
    AfterFirstKeeps(t, p1 - i, p2 - i);
  }

  /** A colon after the first one survives the cut after the first. */
  lemma AfterFirstKeeps(t: string, q1: nat, q2: nat)
    requires q1 < q2 < |t| && t[q1] == ':' && t[q2] == ':' && ':' !in t[..q1]
    ensures ':' in AfterFirst(t, ':')
  {
    assert t == t[..q1] + [':'] + t[q1 + 1..];
    AfterFirstSplit(t[..q1], ':', t[q1 + 1..]);
    assert AfterFirst(t, ':')[q2 - q1 - 1] == t[q2];
  }

  /** A suffix of a text lacks whatever the text lacks. */
  lemma SliceLacks(s: string, i: nat, c: char)
    requires i <= |s| && c !in s
    ensures c !in s[i..]
  {
    forall k | 0 <= k < |s| - i ensures s[i..][k] != c {
      assert s[i..][k] == s[i + k];
    }
  }

  /** The text with every `,` and then every `+` removed. */
  function Unsep(s: string): (r: string)
    ensures ':' in r <==> ':' in s
  {
    RemoveChar(RemoveChar(s, ','), '+')
  }

  /** Removing the separators leaves both colons of `a:b:c` in place. */
  lemma UnsepColons(a: string, b: string, c: string)
    ensures Unsep(a + ":" + b + ":" + c) == Unsep(a) + ":" + Unsep(b) + ":" + Unsep(c)
  {
    RemoveColons(a, b, c, ',');
    RemoveColons(RemoveChar(a, ','), RemoveChar(b, ','), RemoveChar(c, ','), '+');
  }

  lemma RemoveColons(a: string, b: string, c: string, ch: char)
    requires ch != ':'
    ensures RemoveChar(a + ":" + b + ":" + c, ch)
         == RemoveChar(a, ch) + ":" + RemoveChar(b, ch) + ":" + RemoveChar(c, ch)
  {
    RemoveCharAppend(a + ":" + b + ":", c, ch);
    RemoveCharAppend(a + ":" + b, ":", ch);
    RemoveCharAppend(a + ":", b, ch);
    RemoveCharAppend(a, ":", ch);
    RemoveCharAbsent(":", ch);
  }

  /** A decimal comma, as in `"4,5"`, reads as a decimal point. */
  lemma ToFloatDecimalComma(d: Dec)
    ensures ToFloat(JStr(ReplaceChar(FloatText(d), '.', ','))) == Ok(Some(Canon(d)))
  {
    var t := FloatText(d);
    assert ',' !in t;
    ReplaceCharBack(t, '.', ',');
    FloatTextRoundTrip(d);
    ToFloatOfText(ReplaceChar(t, '.', ','));
  }

  /** Text goes to `float()` with its commas turned into points. */
  lemma ToFloatOfText(s: string)
    ensures ToFloat(JStr(s)) == Ok(ParseFloat(FloatCandidate(s)))
  {
  }

  /** The three keywords reduce to two: the second contains the first. */
  lemma MentionsCleanerKeywords(text: string)
    ensures MentionsAny(text, CleanerKeywords)
        <==> Contains(text, "in-app purchases") || Contains(text, "offers in app purchases")
  {
    if Contains(text, CleanerKeywords[1]) {
      assert CleanerKeywords[1] == "offers " + "in-app purchases" + "";
      ContainsPart(text, "offers ", "in-app purchases", "");
    }
    if Contains(text, "in-app purchases") {
      assert Contains(text, CleanerKeywords[0]);
    }
    if Contains(text, "offers in app purchases") {
      assert Contains(text, CleanerKeywords[2]);
    }
  }

  /** Installs already cleaned stay as they are. */
  lemma NormalizeInstallsIdempotent(v: Json)
    ensures NormalizeInstalls(NormalizeInstalls(v)) == NormalizeInstalls(v)
  {
  }

  /** A price already cleaned stays as it is. */
  lemma NormalizePriceIdempotent(v: Json)
    ensures NormalizePrice(JStr(NormalizePrice(v))) == NormalizePrice(v)
  {
    var r := NormalizePrice(v);
    assert IsPriceText(r);
    assert Str(JStr(r)) == r && Strip(r) == r;
    assert r == "Free" || !IsFreeText(r);
  }

  /** A price of zero, as an int or a float, is free. */
  lemma ZeroPriceIsFree(v: Json)
    requires v.JInt? || v.JFloat?
    requires EqualsZero(v)
    ensures NormalizePrice(v) == "Free"
  {
    if v.JInt? {
      assert Str(v) == "0";
    } else {
      ZeroFloatText(v.f.exp);
      assert v.f == Dec(0, v.f.exp);
      assert Str(v) == "0.0";
    }
    StripNoop(Str(v));
  }

  /** Every zero float prints as `0.0`. */
  lemma ZeroFloatText(e: nat)
    ensures FloatText(Dec(0, e)) == "0.0"
  {
    CanonZero(e);
    assert WholeDigits(Dec(0, 0)) == "0";
  }

  lemma {:induction false} CanonZero(e: nat)
    ensures Canon(Dec(0, e)) == Dec(0, 0)
  {
    if e > 0 {
      CanonZero(e - 1);
    }
  }

  // ---------------------------------------------------------------------
  // Properties of the whole record

  /** Only the expected fields of the input matter: any other key is dropped. */
  lemma NormalizeReadsOnlyExpected(raw: seq<Member>)
    ensures Normalize(raw) == Normalize(ToDict(FromDict(raw)))
  {
    FromToDict(FromDict(raw));
    assert FromDict(ToDict(FromDict(raw))) == FromDict(raw);
  }

  /** A normalized record, written out as a dict and normalized again, comes
      back unchanged. */
  lemma NormalizeIdempotent(rec: Record)
    requires IsNormalized(rec)
    ensures Normalize(ToDict(rec)) == Ok(rec)
  {
    FromToDict(rec);
    var c := FromDict(ToDict(rec));
    assert c == rec;
    NormalizeFieldsFixed(rec);
  }

  lemma NormalizeFieldsFixed(rec: Record)
    requires IsNormalized(rec)
    ensures TrimIfText(rec.title) == rec.title && TrimIfText(rec.developer) == rec.developer
    ensures TrimIfText(rec.category) == rec.category && TrimIfText(rec.description) == rec.description
    ensures TrimIfText(rec.iconUrl) == rec.iconUrl && TrimIfText(rec.developerWebsite) == rec.developerWebsite
    ensures ToFloat(rec.rating).Ok?
    ensures FloatOrNull(ToFloat(rec.rating).value) == rec.rating
    ensures ToInt(rec.reviewsCount) == rec.reviewsCount
    ensures NormalizeInstalls(rec.installs) == rec.installs
    ensures JStr(NormalizePrice(rec.price)) == rec.price
    ensures NormalizeInAppPurchases(rec.inAppPurchases, rec.description) == Ok(rec.inAppPurchases)
    ensures NormalizeScreenshots(rec.screenshots) == rec.screenshots
  {
    var p := rec.price.s;
    if p == "Free" {
    } else {
      assert !IsFreeText(p);
    }
  }
}

=== FILE: exporter.dfy ===
/** The CSV shape of a batch of records: the header, and one row of cell
    values per record. Quoting and file output are not modelled. */
module Exporter {
  import opened Wrappers
  import opened Text
  import opened JsonValue
  import opened AppRecord

  // ---------------------------------------------------------------------
  // The header

  /** Every key of every row, row after row. */
  function AllKeys(rows: seq<seq<Member>>): seq<string>
    decreases |rows|
  {
    if |rows| == 0 then [] else AllKeys(rows[..|rows| - 1]) + Keys(rows[|rows| - 1])
  }

  /** The strings of `xs` without repeats, each where it first appears. */
  function Dedup(xs: seq<string>): seq<string>
    decreases |xs|
  {
    if |xs| == 0 then []
    else
      var d := Dedup(xs[..|xs| - 1]);
      var x := xs[|xs| - 1];
      if x in d then d else d + [x]
  }

  predicate Distinct(xs: seq<string>) {
    forall i, j :: 0 <= i < j < |xs| ==> xs[i] != xs[j]
  }

  /** Deduplication keeps every string once and adds none. */
  lemma {:induction false} DedupSpec(xs: seq<string>)
    ensures Distinct(Dedup(xs))
    ensures forall x :: x in Dedup(xs) <==> x in xs
    decreases |xs|
  {
    if |xs| > 0 {
      var init := xs[..|xs| - 1];
      DedupSpec(init);
      assert xs == init + [xs[|xs| - 1]];
    }
  }

  /** First-seen order: what deduplicating a prefix gives starts what
      deduplicating the whole gives. */
  lemma {:induction false} DedupPrefix(a: seq<string>, b: seq<string>)
    ensures |Dedup(a)| <= |Dedup(a + b)| && Dedup(a + b)[..|Dedup(a)|] == Dedup(a)
    decreases |b|
  {
    if |b| == 0 {
      assert a + b == a;
    } else {
      var b' := b[..|b| - 1];
      assert (a + b)[..|a + b| - 1] == a + b';
      DedupPrefix(a, b');
    }
  }

  /** Strings already seen add nothing. */
  lemma {:induction false} DedupAbsorb(a: seq<string>, b: seq<string>)
    requires forall y :: y in b ==> y in a
    ensures Dedup(a + b) == Dedup(a)
    decreases |b|
  {
    if |b| == 0 {
      assert a + b == a;
    } else {
      var b' := b[..|b| - 1];
      assert (a + b)[..|a + b| - 1] == a + b';
      assert b[|b| - 1] in b;
      DedupAbsorb(a, b');
      DedupSpec(a);
    }
  }

  /** Strings without repeats are their own deduplication. */
  lemma {:induction false} DedupDistinct(xs: seq<string>)
    requires Distinct(xs)
    ensures Dedup(xs) == xs
    decreases |xs|
  {
    if |xs| > 0 {
      var init := xs[..|xs| - 1];
      DedupDistinct(init);
      assert xs[|xs| - 1] !in init;
      assert init + [xs[|xs| - 1]] == xs;
    }
  }

  /** Deduplicating one more string adds it unless it was already seen. */
  lemma DedupStep(xs: seq<string>, x: string)
    ensures Dedup(xs + [x]) == if x in Dedup(xs) then Dedup(xs) else Dedup(xs) + [x]
  {
    assert (xs + [x])[..|xs|] == xs;
  }

  /** The keys of one more row follow the keys of the rows before it. */
  lemma AllKeysStep(rows: seq<seq<Member>>, i: int)
    requires 0 <= i < |rows|
    ensures AllKeys(rows[..i + 1]) == AllKeys(rows[..i]) + Keys(rows[i])
  {
    assert rows[..i + 1][..i] == rows[..i];
  }

  /** The loop of `export_to_csv` collecting field names: every key of every
      row, each added the first time it is seen. */
  method Fieldnames(rows: seq<seq<Member>>) returns (names: seq<string>)
    ensures names == Dedup(AllKeys(rows))
  {
    names := [];
    var i := 0;
    while i < |rows|
      invariant 0 <= i <= |rows|
      invariant names == Dedup(AllKeys(rows[..i]))
    {
      names := AddKeys(names, AllKeys(rows[..i]), Keys(rows[i]));
      AllKeysStep(rows, i);
      i := i + 1;
    }
    assert rows[..i] == rows;
  }

  /** The inner loop: the keys of one row, each added unless already seen. */
  method AddKeys(names: seq<string>, ghost seen: seq<string>, keys: seq<string>) returns (out: seq<string>)
    requires names == Dedup(seen)
    ensures out == Dedup(seen + keys)
  {
    out := names;
    var j := 0;
    assert seen + keys[..0] == seen;
    while j < |keys|
      invariant 0 <= j <= |keys|
      invariant out == Dedup(seen + keys[..j])
    {
      DedupStep(seen + keys[..j], keys[j]);
      assert seen + keys[..j + 1] == (seen + keys[..j]) + [keys[j]];
      if keys[j] !in out {
        out := out + [keys[j]];
      }
      j := j + 1;
    }
    assert keys[..j] == keys;
  }

  // ---------------------------------------------------------------------
  // Cell values

  /** `str(v)` of every item, in order. */
  function Texts(items: seq<Json>): (r: seq<string>)
    ensures |r| == |items|
    ensures forall i :: 0 <= i < |items| ==> r[i] == Str(items[i])
  {
    seq(|items|, i requires 0 <= i < |items| => Str(items[i]))
  }

  /** `serialize`: a list becomes its elements' texts joined by `", "`, a
      bool becomes `"true"` or `"false"`, anything else is kept. */
  function Serialize(v: Json): (r: Json)
    ensures !r.JList? && !r.JBool?
    ensures v.JBool? ==> r == JStr(if v.b then "true" else "false")
    ensures !v.JList? && !v.JBool? ==> r == v
    ensures v.JList? ==> r == JStr(Join(", ", Texts(v.items)))
  {
    match v
    case JList(items) => JStr(Join(", ", Texts(items)))
    case JBool(b) => JStr(if b then "true" else "false")
    case _ => v
  }

  /** A joined text holds every part. */
  lemma {:induction false} JoinContains(sep: string, parts: seq<string>, i: int)
    requires 0 <= i < |parts|
    ensures Contains(Join(sep, parts), parts[i])
    decreases |parts|
  {
    if |parts| == 1 {
      assert Join(sep, parts) == "" + parts[0] + "";
      assert OccursAt(Join(sep, parts), parts[0], 0);
    } else if i == 0 {
      var rest := sep + Join(sep, parts[1..]);
      assert Join(sep, parts) == "" + parts[0] + rest;
      assert Join(sep, parts)[..|parts[0]|] == parts[0];
      assert OccursAt(Join(sep, parts), parts[0], 0);
    } else {
      JoinContains(sep, parts[1..], i - 1);
      var whole := Join(sep, parts);
      assert whole == (parts[0] + sep) + Join(sep, parts[1..]) + "";
      assert OccursAt(whole, whole, 0);
      ContainsPart(Join(sep, parts), parts[0] + sep, Join(sep, parts[1..]), "");
      ContainsIn(Join(sep, parts), Join(sep, parts[1..]), parts[i]);
    }
  }

  /** Containment is transitive. */
  lemma ContainsIn(hay: string, mid: string, needle: string)
    requires Contains(hay, mid) && Contains(mid, needle)
    ensures Contains(hay, needle)
  {
    var i :| 0 <= i <= |hay| - |mid| && OccursAt(hay, mid, i);
    var j :| 0 <= j <= |mid| - |needle| && OccursAt(mid, needle, j);
    forall k | 0 <= k < |needle|
      ensures hay[i + j + k] == needle[k]
    {
      assert hay[i..i + |mid|][j + k] == mid[j + k];
      assert mid[j..j + |needle|][k] == needle[k];
    }
    assert hay[i + j..i + j + |needle|] == needle;
    assert OccursAt(hay, needle, i + j);
  }

  /** A serialized list shows the text of each element. */
  lemma SerializeShowsItems(items: seq<Json>, i: int)
    requires 0 <= i < |items|
    ensures Contains(Serialize(JList(items)).s, Str(items[i]))
  {
    JoinContains(", ", Texts(items), i);
  }

  /** `{k: serialize(v) for k, v in row.items()}`. */
  function SerializeRow(row: seq<Member>): (r: seq<Member>)
    ensures Keys(r) == Keys(row)
    ensures forall k :: Lookup(r, k) == (match Lookup(row, k) case Some(v) => Some(Serialize(v)) case None => None)
    decreases |row|
  {
    if |row| == 0 then []
    else
      var init := SerializeRow(row[..|row| - 1]);
      var last := row[|row| - 1];
      var r := init + [Member(last.key, Serialize(last.value))];
      assert r[..|r| - 1] == init;
      assert Keys(row) == Keys(row[..|row| - 1]) + [last.key];
      assert Keys(r) == Keys(init) + [last.key];
      r
  }

  // ---------------------------------------------------------------------
  // The table

  /** What the CSV writer is given: the header and, per row, one cell per
      header name. */
  datatype Csv = Csv(header: seq<string>, body: seq<seq<Json>>)

  /** `DictWriter.writerow` of a serialized row: the value under each header
      name, and `""` for a name the row lacks. */
  function Cells(header: seq<string>, row: seq<Member>): (r: seq<Json>)
    ensures |r| == |header|
  {
    var srow := SerializeRow(row);
    seq(|header|, i requires 0 <= i < |header| => GetOr(srow, header[i], JStr("")))
  }

  /** `export_to_csv`: nothing at all for no rows; otherwise the header of
      every key in first-seen order and the rows, in order, serialized. */
  method ExportCsv(rows: seq<seq<Member>>) returns (r: Option<Csv>)
    ensures r.None? <==> |rows| == 0
    ensures r.Some? ==> r.value.header == Dedup(AllKeys(rows)) && |r.value.body| == |rows|
    ensures r.Some? ==> forall i :: 0 <= i < |rows| ==> r.value.body[i] == Cells(r.value.header, rows[i])
  {
    if |rows| == 0 {
      return None;
    }
    var header := Fieldnames(rows);
    var body := seq(|rows|, i requires 0 <= i < |rows| => Cells(header, rows[i]));
    return Some(Csv(header, body));
  }

  /** The dict form of each record. */
  function RecordRows(recs: seq<Record>): (rows: seq<seq<Member>>)
    ensures |rows| == |recs|
  {
    seq(|recs|, i requires 0 <= i < |recs| => ToDict(recs[i]))
  }

  /** Exporting records: the header is exactly the record's field list, and
      each cell is its field's value, serialized. */
  lemma RecordsExport(recs: seq<Record>)
    requires |recs| > 0
    ensures Dedup(AllKeys(RecordRows(recs))) == ExpectedFields
    ensures forall i, j :: 0 <= i < |recs| && 0 <= j < |ExpectedFields| ==>
      Cells(ExpectedFields, RecordRows(recs)[i])[j] == Serialize(Values(recs[i])[j])
  {
    RecordKeys(RecordRows(recs));
    ExpectedFieldsDistinct();
    DedupDistinct(ExpectedFields);
    forall i, j | 0 <= i < |recs| && 0 <= j < |ExpectedFields|
      ensures Cells(ExpectedFields, RecordRows(recs)[i])[j] == Serialize(Values(recs[i])[j])
    {
      var d := ToDict(recs[i]);
      LookupDistinct(d, j);
    }
  }

  /** The keys of a non-empty run of record dicts, deduplicated, are the
      field list. */
  lemma {:induction false} RecordKeys(rows: seq<seq<Member>>)
    requires |rows| > 0
    requires forall i :: 0 <= i < |rows| ==> Keys(rows[i]) == ExpectedFields
    ensures Dedup(AllKeys(rows)) == Dedup(ExpectedFields)
    decreases |rows|
  {
    if |rows| == 1 {
      assert rows[..0] == [];
      assert AllKeys(rows) == AllKeys([]) + Keys(rows[0]);
      assert AllKeys(rows) == ExpectedFields;
    } else {
      var init := rows[..|rows| - 1];
      RecordKeys(init);
      DedupSpec(AllKeys(init));
      DedupSpec(ExpectedFields);
      DedupAbsorb(AllKeys(init), ExpectedFields);
    }
  }
}

=== FILE: json.dfy ===
/** The decoded JSON values the extractor works on, with the Python
    operations it applies to them: `dict.get`, `key in dict`, assignment to
    a key, truthiness, and the text `str()` gives a value. */
module JsonValue {
  import opened Wrappers
  import opened Text

  /** A value `json.loads` can return. Integers and floats stay apart, as in
      Python; a float is an exact decimal. An object is its members in order. */
  datatype Json =
    | JNull
    | JBool(b: bool)
    | JInt(i: int)
    | JFloat(f: Dec)
    | JStr(s: string)
    | JList(items: seq<Json>)
    | JObj(members: seq<Member>)

  datatype Member = Member(key: string, value: Json)

  /** The keys of an object, in order. */
  function Keys(ms: seq<Member>): seq<string> {
    seq(|ms|, i requires 0 <= i < |ms| => ms[i].key)
  }

  /** Python's `k in d`. */
  predicate HasKey(ms: seq<Member>, k: string) {
    k in Keys(ms)
  }

  /** No key occurs twice, as in every Python dict. */
  predicate DistinctKeys(ms: seq<Member>) {
    forall i, j :: 0 <= i < j < |ms| ==> ms[i].key != ms[j].key
  }

  /** No member after position `i` has key `k`. */
  predicate LastWith(ms: seq<Member>, k: string, i: int) {
    forall j :: 0 <= j < |ms| && i < j ==> ms[j].key != k
  }

  /** The value stored under `k`: the last member with that key, which is the
      one `json.loads` keeps when a key is repeated. */
  function Lookup(ms: seq<Member>, k: string): (r: Option<Json>)
    ensures r.None? <==> !HasKey(ms, k)
    ensures r.Some? ==> exists i :: 0 <= i < |ms| && ms[i] == Member(k, r.value) && LastWith(ms, k, i)
    decreases |ms|
  {
    if |ms| == 0 then None
    else
      assert Keys(ms) == Keys(ms[..|ms| - 1]) + [ms[|ms| - 1].key];
      if ms[|ms| - 1].key == k then Some(ms[|ms| - 1].value)
      else Lookup(ms[..|ms| - 1], k)
  }

  /** In an object without repeated keys, a member's value is what lookup finds. */
  lemma {:induction false} LookupDistinct(ms: seq<Member>, i: int)
    requires DistinctKeys(ms) && 0 <= i < |ms|
    ensures Lookup(ms, ms[i].key) == Some(ms[i].value)
    decreases |ms|
  {
    if i < |ms| - 1 {
      LookupDistinct(ms[..|ms| - 1], i);
    }
  }

  /** `d.get(k, default)`. */
  function GetOr(ms: seq<Member>, k: string, default: Json): Json {
    Lookup(ms, k).GetOr(default)
  }

  /** `d.get(k)`: `None` when the key is absent. */
  function Get(ms: seq<Member>, k: string): Json {
    GetOr(ms, k, JNull)
  }

  /** `d[k] = v`: an existing key keeps its place, a new key goes last. */
  function Set(ms: seq<Member>, k: string, v: Json): (r: seq<Member>)
    ensures Lookup(r, k) == Some(v)
    ensures forall k' :: k' != k ==> Lookup(r, k') == Lookup(ms, k')
    ensures HasKey(ms, k) ==> Keys(r) == Keys(ms)
    ensures !HasKey(ms, k) ==> r == ms + [Member(k, v)]
  {
    if HasKey(ms, k) then
      LookupReplace(ms, k, v);
      Replace(ms, k, v)
    else
      LookupAppend(ms, Member(k, v));
      ms + [Member(k, v)]
  }

  /** Every member under `k` given the value `v`. */
  function Replace(ms: seq<Member>, k: string, v: Json): (r: seq<Member>)
    ensures Keys(r) == Keys(ms)
  {
    seq(|ms|, i requires 0 <= i < |ms| => if ms[i].key == k then Member(k, v) else ms[i])
  }

  /** Lookup in an object after replacing the values under one key. */
  lemma {:induction false} LookupReplace(ms: seq<Member>, k: string, v: Json)
    ensures forall k' :: Lookup(Replace(ms, k, v), k')
                         == if k' == k && HasKey(ms, k) then Some(v) else Lookup(ms, k')
    decreases |ms|
  {
    if |ms| > 0 {
      var init := ms[..|ms| - 1];
      LookupReplace(init, k, v);
      assert Replace(ms, k, v)[..|ms| - 1] == Replace(init, k, v);
      assert Keys(ms) == Keys(init) + [ms[|ms| - 1].key];
    }
  }

  /** Lookup in an object after appending one member. */
  lemma LookupAppend(ms: seq<Member>, m: Member)
    ensures forall k' :: Lookup(ms + [m], k') == if k' == m.key then Some(m.value) else Lookup(ms, k')
  {
    assert (ms + [m])[..|ms|] == ms;
  }

  /** Assignment keeps an object free of repeated keys. */
  lemma SetDistinct(ms: seq<Member>, k: string, v: Json)
    requires DistinctKeys(ms)
    ensures DistinctKeys(Set(ms, k, v))
  {
    var r := Set(ms, k, v);
    if HasKey(ms, k) {
      forall i, j | 0 <= i < j < |r|
        ensures r[i].key != r[j].key
      {
        assert Keys(r)[i] == Keys(ms)[i] && Keys(r)[j] == Keys(ms)[j];
      }
    } else {
      forall i | 0 <= i < |ms|
        ensures ms[i].key != k
      {
        assert Keys(ms)[i] == ms[i].key;
      }
    }
  }

  /** `d[k] = v` for every member of `src`, first to last: how `dict.update`
      and building a dict from decoded pairs both behave. */
  function SetAll(ms: seq<Member>, src: seq<Member>): (r: seq<Member>)
    ensures forall k :: Lookup(r, k) == if HasKey(src, k) then Lookup(src, k) else Lookup(ms, k)
    ensures |ms| <= |r| && Keys(r)[..|ms|] == Keys(ms)
    decreases |src|
  {
    if |src| == 0 then ms
    else
      var last := src[|src| - 1];
      var init := src[..|src| - 1];
      assert src == init + [last];
      assert Keys(src) == Keys(init) + [last.key];
      LookupAppend(init, last);
      var acc := SetAll(ms, init);
      var r := Set(acc, last.key, last.value);
      assert Keys(r)[..|ms|] == Keys(ms) by {
        if !HasKey(acc, last.key) {
          assert Keys(r) == Keys(acc) + [last.key];
        }
      }
      r
  }

  /** Repeated assignment keeps an object free of repeated keys. */
  lemma {:induction false} SetAllDistinct(ms: seq<Member>, src: seq<Member>)
    requires DistinctKeys(ms)
    ensures DistinctKeys(SetAll(ms, src))
    decreases |src|
  {
    if |src| > 0 {
      var last := src[|src| - 1];
      SetAllDistinct(ms, src[..|src| - 1]);
      SetDistinct(SetAll(ms, src[..|src| - 1]), last.key, last.value);
    }
  }

  /** The Python dict a decoded object becomes: one member per key, in the
      order keys first appear, holding the key's last value. */
  function Items(ms: seq<Member>): (r: seq<Member>)
    ensures DistinctKeys(r)
    ensures forall k :: Lookup(r, k) == Lookup(ms, k)
  {
    SetAllDistinct([], ms);
    SetAll([], ms)
  }

  /** Python truthiness: `None`, `False`, zero, and empty strings, lists and
      dicts are false; everything else is true. */
  predicate Truthy(j: Json) {
    match j
    case JNull => false
    case JBool(b) => b
    case JInt(n) => n != 0
    case JFloat(d) => d.mant != 0
    case JStr(s) => |s| > 0
    case JList(xs) => |xs| > 0
    case JObj(ms) => |ms| > 0
  }

  /** Python's `a or b`. */
  function Or(a: Json, b: Json): (r: Json)
    ensures Truthy(a) ==> r == a
    ensures !Truthy(a) ==> r == b
  {
    if Truthy(a) then a else b
  }

  /** Python's `x == 0`: `False`, `0` and `0.0` all compare equal to zero. */
  predicate EqualsZero(j: Json) {
    j == JBool(false) || j == JInt(0) || (j.JFloat? && j.f.mant == 0)
  }

  // ---------------------------------------------------------------------
  // str() and repr()

  function HexDigit(n: nat): char
    requires n < 16
  {
    "0123456789abcdef"[n]
  }

  /** How `repr` writes one character of a string quoted with `q`. */
  function EscapeChar(c: char, q: char): string {
    if c == '\\' then "\\\\"
    else if c == q then ['\\', q]
    else if c == '\t' then "\\t"
    else if c == '\n' then "\\n"
    else if c == '\r' then "\\r"
    else if c < ' ' || ('\U{7F}' <= c <= '\U{A0}') then
      "\\x" + [HexDigit(c as int / 16), HexDigit(c as int % 16)]
    else [c]
  }

  function Escaped(s: string, q: char): string {
    if |s| == 0 then "" else EscapeChar(s[0], q) + Escaped(s[1..], q)
  }

  /** `repr(s)` for a string: single quotes, unless the text holds a single
      quote and no double quote. */
  function QuoteRepr(s: string): (r: string)
    ensures |r| >= 2
  {
    var q := if '\'' in s && '"' !in s then '"' else '\'';
    [q] + Escaped(s, q) + [q]
  }

  /** `repr(j)`, as Python writes values nested inside lists and dicts. */
  function Repr(j: Json): (r: string)
    ensures j.JList? ==> |r| >= 2 && r[0] == '[' && r[|r| - 1] == ']'
    ensures j.JObj? ==> |r| >= 2 && r[0] == '{' && r[|r| - 1] == '}'
    decreases j
  {
    match j
    case JNull => "None"
    case JBool(b) => if b then "True" else "False"
    case JInt(n) => IntText(n)
    case JFloat(d) => FloatText(d)
    case JStr(s) => QuoteRepr(s)
    case JList(items) =>
      "[" + Join(", ", seq(|items|, i requires 0 <= i < |items| => Repr(items[i]))) + "]"
    case JObj(ms) =>
      "{" + Join(", ", seq(|ms|, i requires 0 <= i < |ms| => QuoteRepr(ms[i].key) + ": " + Repr(ms[i].value))) + "}"
  }

  /** `str(j)`: a string is its own text; every other value prints as its repr. */
  function Str(j: Json): (r: string)
    ensures j.JStr? ==> r == j.s
  {
    if j.JStr? then j.s else Repr(j)
  }
}

=== FILE: play_parser.dfy ===
/** Field derivation from a fetched app page: the JSON-LD block that
    describes the app, with the page's `og:` meta tags as fallback. */
module PlayParser {
  import opened Wrappers
  import opened Text
  import opened JsonValue
  import opened AppRecord

  /** A fetched page with its HTML already taken apart: every
      `application/ld+json` script block, decoded (`None` when it does not
      decode), and the `content` attribute of the `og:title`,
      `og:description` and `og:image` meta tags (`None` when the tag or the
      attribute is missing). */
  datatype Page = Page(
    blocks: seq<Option<Json>>,
    ogTitle: Option<string>,
    ogDescription: Option<string>,
    ogImage: Option<string>)

  /** The ways deriving a record fails, each a Python exception in the source. */
  datatype ParseError =
    | RatingNotObject     // `aggregateRating` present but not a dict: `.get` on it raises
    | OfferNotObject      // `offers`, or its first element, not a dict: `.get` on it raises
    | DescriptionNotText  // a truthy non-string description: `.lower()` on it raises
    | EmptyAppId          // `get_app_data` refuses an empty id before fetching
    | FetchFailed         // the HTTP request raised

  // ---------------------------------------------------------------------
  // Locating the JSON-LD object

  /** A dict whose `@type` is `"SoftwareApplication"`. */
  predicate IsApp(j: Json) {
    j.JObj? && Get(j.members, "@type") == JStr("SoftwareApplication")
  }

  /** The first app object in `xs`. */
  function FirstApp(xs: seq<Json>): (r: Option<Json>)
    ensures r.None? <==> forall i :: 0 <= i < |xs| ==> !IsApp(xs[i])
    ensures r.Some? ==> exists i :: 0 <= i < |xs| && xs[i] == r.value && IsApp(xs[i])
                                     && forall j :: 0 <= j < i ==> !IsApp(xs[j])
  {
    if |xs| == 0 then None
    else if IsApp(xs[0]) then Some(xs[0])
    else
      var r := FirstApp(xs[1..]);
      assert forall j :: 1 <= j < |xs| ==> xs[j] == xs[1..][j - 1];
      r
  }

  /** The values one script block offers as candidates: the items of a list,
      the value itself otherwise, nothing when the block did not decode. */
  function BlockCandidates(b: Option<Json>): seq<Json> {
    match b
    case None => []
    case Some(JList(items)) => items
    case Some(v) => [v]
  }

  /** Every candidate of every block, in page order. */
  function Candidates(blocks: seq<Option<Json>>): seq<Json> {
    if |blocks| == 0 then [] else BlockCandidates(blocks[0]) + Candidates(blocks[1..])
  }

  /** The first app among `a + b` is the first in `a`, or failing that the first in `b`. */
  lemma {:induction false} FirstAppAppend(a: seq<Json>, b: seq<Json>)
    ensures FirstApp(a + b) == if FirstApp(a).Some? then FirstApp(a) else FirstApp(b)
    decreases |a|
  {
    if |a| > 0 {
      assert (a + b)[0] == a[0];
      assert (a + b)[1..] == a[1..] + b;
      FirstAppAppend(a[1..], b);
    } else {
      assert a + b == b;
    }
  }

  /** `_extract_json_ld`: scans the script blocks in order, skipping those
      that did not decode; a list block is searched item by item, any other
      block is taken as it is. */
  function ExtractJsonLd(blocks: seq<Option<Json>>): (r: Option<Json>)
    ensures r == FirstApp(Candidates(blocks))
    ensures r.Some? ==> IsApp(r.value)
    decreases |blocks|
  {
    if |blocks| == 0 then None
    else
      var rest := ExtractJsonLd(blocks[1..]);
      FirstAppAppend(BlockCandidates(blocks[0]), Candidates(blocks[1..]));
      match blocks[0]
      case None => rest
      case Some(data) =>
        if data.JList? then
          match FirstApp(data.items)
          case Some(item) => Some(item)
          case None => rest
        else if IsApp(data) then Some(data)
        else rest
  }

  /** The dict the fields are read from: the JSON-LD app object, or `{}`. */
  function AppLd(page: Page): (ld: seq<Member>)
    ensures ExtractJsonLd(page.blocks).None? ==> ld == []
    ensures ExtractJsonLd(page.blocks).Some? ==> ld == ExtractJsonLd(page.blocks).value.members
  {
    match ExtractJsonLd(page.blocks)
    case Some(app) => app.members
    case None => []
  }

  // ---------------------------------------------------------------------
  // _safe_get

  /** `_safe_get(container, *keys, default=default)`: follows `keys` through
      nested dicts, with `.get(key, default)` at each step, and gives
      `default` as soon as the current value is not a dict. */
  function SafeGet(container: Json, keys: seq<string>, default: Json): (r: Json)
    decreases |keys|
  {
    if |keys| == 0 then container
    else if !container.JObj? then default
    else SafeGet(GetOr(container.members, keys[0], default), keys[1..], default)
  }

  /** The value at the end of a path of keys, when every step is a dict
      holding the next key. */
  function PathValue(container: Json, keys: seq<string>): Option<Json>
    decreases |keys|
  {
    if |keys| == 0 then Some(container)
    else if !container.JObj? then None
    else
      match Lookup(container.members, keys[0])
      case None => None
      case Some(v) => PathValue(v, keys[1..])
  }

  /** Where the path exists `_safe_get` finds its value; where it does not,
      a default that is not a non-empty dict comes back. */
  lemma {:induction false} SafeGetPath(container: Json, keys: seq<string>, default: Json)
    requires !default.JObj? || |default.members| == 0
    ensures PathValue(container, keys).Some? ==> SafeGet(container, keys, default) == PathValue(container, keys).value
    ensures PathValue(container, keys).None? ==> SafeGet(container, keys, default) == default
    decreases |keys|
  {
    if |keys| > 0 && container.JObj? {
      match Lookup(container.members, keys[0])
      case Some(v) =>
        SafeGetPath(v, keys[1..], default);
      case None =>
        SafeGetDefault(keys[1..], default);
    }
  }

  /** Once `_safe_get` holds its default, it keeps it. */
  lemma {:induction false} SafeGetDefault(keys: seq<string>, default: Json)
    requires !default.JObj? || |default.members| == 0
    ensures SafeGet(default, keys, default) == default
    decreases |keys|
  {
    if |keys| > 0 && default.JObj? {
      assert GetOr(default.members, keys[0], default) == default;
      SafeGetDefault(keys[1..], default);
    }
  }

  /** Following a path in two legs is following it at once, for a default
      that is not a dict or is the empty dict. */
  lemma {:induction false} SafeGetAppend(container: Json, a: seq<string>, b: seq<string>, default: Json)
    requires !default.JObj? || |default.members| == 0
    ensures SafeGet(container, a + b, default) == SafeGet(SafeGet(container, a, default), b, default)
    decreases |a|
  {
    if |a| == 0 {
      assert a + b == b;
    } else if !container.JObj? {
      SafeGetDefault(b, default);
    } else {
      assert (a + b)[0] == a[0];
      assert (a + b)[1..] == a[1..] + b;
      SafeGetAppend(GetOr(container.members, a[0], default), a[1..], b, default);
    }
  }

  // ---------------------------------------------------------------------
  // Field rules

  /** `value or (meta["content"].strip() if the tag has content else None)`:
      a truthy JSON-LD value as it is, then the stripped meta content, then null. */
  function WithMetaFallback(v: Json, meta: Option<string>): (r: Json)
    ensures Truthy(v) ==> r == v
    ensures !Truthy(v) ==> r == (if meta.Some? then JStr(Strip(meta.value)) else JNull)
  {
    Or(v, if meta.Some? then JStr(Strip(meta.value)) else JNull)
  }

  /** The developer and the developer website. */
  datatype Developer = Developer(name: Json, website: Json)

  /** `author`, or `publisher` when `author` is falsy. A dict gives its
      `name`, and its `url` or else `sameAs`; a string is the name alone;
      anything else gives neither. */
  function DeveloperOf(ld: seq<Member>): (r: Developer)
    ensures Or(Get(ld, "author"), Get(ld, "publisher")).JObj? ==>
      var a := Or(Get(ld, "author"), Get(ld, "publisher")).members;
      r == Developer(Get(a, "name"), Or(Get(a, "url"), Get(a, "sameAs")))
    ensures Or(Get(ld, "author"), Get(ld, "publisher")).JStr? ==>
      r == Developer(Or(Get(ld, "author"), Get(ld, "publisher")), JNull)
    ensures !Or(Get(ld, "author"), Get(ld, "publisher")).JObj? && !Or(Get(ld, "author"), Get(ld, "publisher")).JStr? ==>
      r == Developer(JNull, JNull)
  {
    var author := Or(Get(ld, "author"), Get(ld, "publisher"));
    if author.JObj? then
      Developer(Get(author.members, "name"), Or(Get(author.members, "url"), Get(author.members, "sameAs")))
    else if author.JStr? then Developer(author, JNull)
    else Developer(JNull, JNull)
  }

  /** The rating and the review count. */
  datatype Ratings = Ratings(rating: Json, reviews: Json)

  /** `aggregateRating` read through `_safe_get` with default `{}`: absent,
      it gives no rating; present, it must be a dict. */
  function RatingsOf(ld: seq<Member>): (r: Result<Ratings, ParseError>)
    ensures r.Err? <==> HasKey(ld, "aggregateRating") && !Get(ld, "aggregateRating").JObj?
    ensures r.Err? ==> r.error == RatingNotObject
    ensures !HasKey(ld, "aggregateRating") ==> r == Ok(Ratings(JNull, JNull))
    ensures HasKey(ld, "aggregateRating") && Get(ld, "aggregateRating").JObj? ==>
      var ar := Get(ld, "aggregateRating").members;
      r == Ok(Ratings(Get(ar, "ratingValue"), Or(Get(ar, "ratingCount"), Get(ar, "reviewCount"))))
  {
    var ar := SafeGet(JObj(ld), ["aggregateRating"], JObj([]));
    assert ar == GetOr(ld, "aggregateRating", JObj([]));
    if ar.JObj? then
      Ok(Ratings(Get(ar.members, "ratingValue"), Or(Get(ar.members, "ratingCount"), Get(ar.members, "reviewCount"))))
    else
      Err(RatingNotObject)
  }

  /** `offers` with default `{}`, and the first element of a list (or `{}`
      for an empty one). Whatever is left must be a dict. */
  function OfferOf(ld: seq<Member>): (r: Result<seq<Member>, ParseError>)
    ensures r.Err? ==> r.error == OfferNotObject
    ensures !HasKey(ld, "offers") ==> r == Ok([])
    ensures HasKey(ld, "offers") && Get(ld, "offers").JObj? ==> r == Ok(Get(ld, "offers").members)
    ensures HasKey(ld, "offers") && Get(ld, "offers").JList? ==>
      var xs := Get(ld, "offers").items;
      if |xs| == 0 then r == Ok([])
      else r == (if xs[0].JObj? then Ok(xs[0].members) else Err(OfferNotObject))
    ensures HasKey(ld, "offers") && !Get(ld, "offers").JObj? && !Get(ld, "offers").JList? ==> r == Err(OfferNotObject)
  {
    var offers := GetOr(ld, "offers", JObj([]));
    var offer := if offers.JList? then (if |offers.items| > 0 then offers.items[0] else JObj([])) else offers;
    if offer.JObj? then Ok(offer.members) else Err(OfferNotObject)
  }

  /** `price is None or price == 0 or str(price) == "0"`. */
  predicate IsFreePrice(price: Json) {
    price.JNull? || EqualsZero(price) || Str(price) == "0"
  }

  /** The price text: `"Free"` for a free price, else `"{price} {currency}"`
      with a truthy currency, else the price's own text. */
  function FormatPrice(price: Json, currency: Json): (r: string)
    ensures r == "Free" <==> IsFreePrice(price) || (!Truthy(currency) && Str(price) == "Free")
    ensures !IsFreePrice(price) && Truthy(currency) ==> r == Str(price) + " " + Str(currency)
    ensures !IsFreePrice(price) && !Truthy(currency) ==> r == Str(price)
  {
    if IsFreePrice(price) then "Free"
    else if Truthy(currency) then
      var r := Str(price) + " " + Str(currency);
      assert r[|Str(price)|] == ' ';
      assert ' ' !in "Free";
      r
    else Str(price)
  }

  /** The words whose presence in the description marks in-app purchases. */
  const ParserTriggers: seq<string> := ["in-app purchases", "offers in-app purchases", "offers in app purchases", "contains ads"]

  /** `(description or "").lower()` scanned for a trigger; a truthy
      description that is not a string makes `.lower()` raise. */
  function InAppOf(description: Json): (r: Result<bool, ParseError>)
    ensures r.Err? <==> Truthy(description) && !description.JStr?
    ensures r.Err? ==> r.error == DescriptionNotText
    ensures description.JStr? ==> r == Ok(MentionsAny(Lower(description.s), ParserTriggers))
    ensures !Truthy(description) ==> r == Ok(false)
  {
    var d := Or(description, JStr(""));
    if d.JStr? then
      assert !Truthy(description) ==> !MentionsAny(Lower(d.s), ParserTriggers);
      Ok(MentionsAny(Lower(d.s), ParserTriggers))
    else
      Err(DescriptionNotText)
  }

  /** An absent `screenshot` key gives `[]`, a list is taken as it is, and
      any other value (null included) becomes a one-element list. */
  function ScreenshotsOf(ld: seq<Member>): (r: Json)
    ensures r.JList?
    ensures !HasKey(ld, "screenshot") ==> r == JList([])
    ensures HasKey(ld, "screenshot") && Get(ld, "screenshot").JList? ==> r == Get(ld, "screenshot")
    ensures HasKey(ld, "screenshot") && !Get(ld, "screenshot").JList? ==> r == JList([Get(ld, "screenshot")])
  {
    match Lookup(ld, "screenshot")
    case None => JList([])
    case Some(v) => if v.JList? then v else JList([v])
  }

  // ---------------------------------------------------------------------
  // The record

  /** `parse_app_data`: the raw record for `appId`, or the exception the
      source raises, in the order its statements run. */
  function ParseAppData(page: Page, appId: string): (r: Result<Record, ParseError>)
    ensures r.Err? <==> RatingsOf(AppLd(page)).Err? || OfferOf(AppLd(page)).Err?
                        || (Truthy(WithMetaFallback(Get(AppLd(page), "description"), page.ogDescription))
                            && !WithMetaFallback(Get(AppLd(page), "description"), page.ogDescription).JStr?)
    ensures r.Ok? ==> r.value.appId == JStr(appId) && r.value.installs == JNull
    ensures r.Ok? ==> r.value.price.JStr? && r.value.inAppPurchases.JBool? && r.value.screenshots.JList?
    ensures r.Ok? ==> r.value.version == Get(AppLd(page), "softwareVersion")
                      && r.value.releaseDate == Get(AppLd(page), "datePublished")
                      && r.value.lastUpdated == Get(AppLd(page), "dateModified")
    ensures r.Ok? ==> r.value.title == WithMetaFallback(Get(AppLd(page), "name"), page.ogTitle)
                      && r.value.description == WithMetaFallback(Get(AppLd(page), "description"), page.ogDescription)
                      && r.value.iconUrl == WithMetaFallback(Get(AppLd(page), "image"), page.ogImage)
    ensures r.Ok? ==> r.value.developer == DeveloperOf(AppLd(page)).name
                      && r.value.developerWebsite == DeveloperOf(AppLd(page)).website
                      && r.value.category == Or(Get(AppLd(page), "applicationCategory"), Get(AppLd(page), "genre"))
    ensures r.Ok? ==> r.value.rating == RatingsOf(AppLd(page)).value.rating
                      && r.value.reviewsCount == RatingsOf(AppLd(page)).value.reviews
    ensures r.Ok? ==> var offer := OfferOf(AppLd(page)).value;
                      r.value.price == JStr(FormatPrice(Get(offer, "price"), Get(offer, "priceCurrency")))
    ensures r.Ok? ==> r.value.inAppPurchases == JBool(InAppOf(r.value.description).value)
                      && r.value.screenshots == ScreenshotsOf(AppLd(page))
  {
    var ld := AppLd(page);
    var description := WithMetaFallback(Get(ld, "description"), page.ogDescription);
    var developer := DeveloperOf(ld);
    var ratings :- RatingsOf(ld);
    var offer :- OfferOf(ld);
    var iap :- InAppOf(description);
    Ok(Record(
      appId := JStr(appId),
      title := WithMetaFallback(Get(ld, "name"), page.ogTitle),
      developer := developer.name,
      category := Or(Get(ld, "applicationCategory"), Get(ld, "genre")),
      rating := ratings.rating,
      reviewsCount := ratings.reviews,
      installs := JNull,
      price := JStr(FormatPrice(Get(offer, "price"), Get(offer, "priceCurrency"))),
      inAppPurchases := JBool(iap),
      description := description,
      releaseDate := Get(ld, "datePublished"),
      lastUpdated := Get(ld, "dateModified"),
      version := Get(ld, "softwareVersion"),
      screenshots := ScreenshotsOf(ld),
      iconUrl := WithMetaFallback(Get(ld, "image"), page.ogImage),
      developerWebsite := developer.website))
  }

  /** `get_app_data`: an empty id is refused before anything is fetched;
      `fetched` is the outcome of fetching the page (`None` when the request
      raised). */
  function GetAppData(appId: string, fetched: Option<Page>): (r: Result<Record, ParseError>)
    ensures appId == "" ==> r == Err(EmptyAppId)
    ensures appId != "" && fetched.None? ==> r == Err(FetchFailed)
    ensures appId != "" && fetched.Some? ==> r == ParseAppData(fetched.value, appId)
  {
    if appId == "" then Err(EmptyAppId)
    else if fetched.None? then Err(FetchFailed)
    else ParseAppData(fetched.value, appId)
  }

  /** The JSON-LD comes first: when the app object has a truthy name,
      description and image, the meta tags change nothing, and the record
      carries those three values. */
  lemma LdBeforeMeta(page: Page, appId: string, ogTitle: Option<string>, ogDescription: Option<string>, ogImage: Option<string>)
    requires Truthy(Get(AppLd(page), "name")) && Truthy(Get(AppLd(page), "description")) && Truthy(Get(AppLd(page), "image"))
    ensures ParseAppData(page.(ogTitle := ogTitle, ogDescription := ogDescription, ogImage := ogImage), appId) == ParseAppData(page, appId)
    ensures ParseAppData(page, appId).Ok? ==>
      var rec := ParseAppData(page, appId).value;
      rec.title == Get(AppLd(page), "name") && rec.description == Get(AppLd(page), "description")
      && rec.iconUrl == Get(AppLd(page), "image")
  {
    var other := page.(ogTitle := ogTitle, ogDescription := ogDescription, ogImage := ogImage);
    assert AppLd(other) == AppLd(page);
  }

  /** `publisher` is read only when `author` is falsy: with a truthy author,
      any publisher gives the same developer. */
  lemma AuthorBeforePublisher(ld: seq<Member>, publisher: Json)
    requires Truthy(Get(ld, "author"))
    ensures DeveloperOf(Set(ld, "publisher", publisher)) == DeveloperOf(ld)
  {
    assert Get(Set(ld, "publisher", publisher), "author") == Get(ld, "author");
  }

  /** The meta text a page offers for a field. */
  function MetaText(meta: Option<string>): Json {
    if meta.Some? then JStr(Strip(meta.value)) else JNull
  }

  /** A page without an app object in its JSON-LD yields a record built from
      the meta tags alone, and never an error. */
  lemma MetaOnlyPage(page: Page, appId: string)
    requires forall i :: 0 <= i < |Candidates(page.blocks)| ==> !IsApp(Candidates(page.blocks)[i])
    ensures ParseAppData(page, appId) == Ok(Record(
      appId := JStr(appId), title := MetaText(page.ogTitle), developer := JNull,
      category := JNull, rating := JNull, reviewsCount := JNull, installs := JNull,
      price := JStr("Free"),
      inAppPurchases := JBool(MetaText(page.ogDescription).JStr? && MentionsAny(Lower(MetaText(page.ogDescription).s), ParserTriggers)),
      description := MetaText(page.ogDescription), releaseDate := JNull, lastUpdated := JNull,
      version := JNull, screenshots := JList([]), iconUrl := MetaText(page.ogImage),
      developerWebsite := JNull))
  {
    assert AppLd(page) == [];
    assert FormatPrice(JNull, JNull) == "Free";
  }
}

=== FILE: record.dfy ===
/** The fixed 16-field app record that the extractor produces and the
    cleaner normalizes, and its dict form. */
module AppRecord {
  import opened Wrappers
  import opened JsonValue

  /** The record's keys, in output order. */
  const ExpectedFields: seq<string> := [
    "appId", "title", "developer", "category", "rating", "reviewsCount",
    "installs", "price", "inAppPurchases", "description", "releaseDate",
    "lastUpdated", "version", "screenshots", "iconUrl", "developerWebsite"
  ]

  /** One value per expected field. Before normalization any field may hold
      any value; the cleaner establishes the types `IsNormalized` names. */
  datatype Record = Record(
    appId: Json,
    title: Json,
    developer: Json,
    category: Json,
    rating: Json,
    reviewsCount: Json,
    installs: Json,
    price: Json,
    inAppPurchases: Json,
    description: Json,
    releaseDate: Json,
    lastUpdated: Json,
    version: Json,
    screenshots: Json,
    iconUrl: Json,
    developerWebsite: Json)

  /** The field values in `ExpectedFields` order. */
  function Values(r: Record): (vs: seq<Json>)
    ensures |vs| == |ExpectedFields|
  {
    [r.appId, r.title, r.developer, r.category, r.rating, r.reviewsCount,
     r.installs, r.price, r.inAppPurchases, r.description, r.releaseDate,
     r.lastUpdated, r.version, r.screenshots, r.iconUrl, r.developerWebsite]
  }

  lemma ExpectedFieldsDistinct()
    ensures forall i, j :: 0 <= i < j < |ExpectedFields| ==> ExpectedFields[i] != ExpectedFields[j]
  {
  }

  /** The record as a dict: exactly the expected keys, in order, none repeated. */
  function ToDict(r: Record): (d: seq<Member>)
    ensures Keys(d) == ExpectedFields
    ensures DistinctKeys(d)
  {
    ExpectedFieldsDistinct();
    seq(|ExpectedFields|, i requires 0 <= i < |ExpectedFields| => Member(ExpectedFields[i], Values(r)[i]))
  }

  /** The record whose fields, in `ExpectedFields` order, are `vs`. */
  function FromValues(vs: seq<Json>): (r: Record)
    requires |vs| == |ExpectedFields|
    ensures Values(r) == vs
  {
    Record(vs[0], vs[1], vs[2], vs[3], vs[4], vs[5], vs[6], vs[7],
           vs[8], vs[9], vs[10], vs[11], vs[12], vs[13], vs[14], vs[15])
  }

  /** `raw.get(field)` for every expected field: missing keys read as `None`
      and keys outside the schema are not read at all. */
  function FromDict(raw: seq<Member>): (r: Record)
    ensures forall i :: 0 <= i < |ExpectedFields| ==> Values(r)[i] == Get(raw, ExpectedFields[i])
  {
    FromValues(seq(|ExpectedFields|, i requires 0 <= i < |ExpectedFields| => Get(raw, ExpectedFields[i])))
  }

  /** A record is determined by its field values. */
  lemma ValuesInjective(a: Record, b: Record)
    requires Values(a) == Values(b)
    ensures a == b
  {
    assert forall i :: 0 <= i < |ExpectedFields| ==> Values(a)[i] == Values(b)[i];
  }

  /** Reading a record's dict back field by field gives the record. */
  lemma FromToDict(r: Record)
    ensures FromDict(ToDict(r)) == r
  {
    var d := ToDict(r);
    forall i | 0 <= i < |d|
      ensures Get(d, ExpectedFields[i]) == Values(r)[i]
    {
      LookupDistinct(d, i);
    }
    assert Values(FromDict(d)) == Values(r);
    ValuesInjective(FromDict(d), r);
  }
}

=== FILE: text.dfy ===
/** The pieces of Python's string handling that the extractor relies on:
    `str.strip()`, `str.lower()`, substring search, `replace`, `split(c, 1)`,
    line splitting, `", ".join(...)`, and the text forms of integers and
    floats that `str()`, `int()` and `float()` produce and accept. */
module Text {
  import opened Wrappers

  // ---------------------------------------------------------------------
  // Whitespace and str.strip()

  /** The characters Python's `str.isspace()` accepts; `str.strip()` with no
      argument removes exactly these from both ends of a string. */
  predicate IsSpace(c: char) {
    || c == ' '
    || ('\t' <= c <= '\r')
    || ('\U{1C}' <= c <= '\U{1F}')
    || c == '\U{85}' || c == '\U{A0}' || c == '\U{1680}'
    || ('\U{2000}' <= c <= '\U{200A}')
    || c == '\U{2028}' || c == '\U{2029}' || c == '\U{202F}'
    || c == '\U{205F}' || c == '\U{3000}'
  }

  /** `s.lstrip()`: the longest suffix of `s` that does not start with whitespace. */
  function TrimStart(s: string): (r: string)
    ensures |r| <= |s| && r == s[|s| - |r|..]
    ensures forall k :: 0 <= k < |s| - |r| ==> IsSpace(s[k])
    ensures |r| > 0 ==> !IsSpace(r[0])
    decreases |s|
  {
    if |s| > 0 && IsSpace(s[0]) then TrimStart(s[1..]) else s
  }

  /** `s.rstrip()`: the longest prefix of `s` that does not end with whitespace. */
  function TrimEnd(s: string): (r: string)
    ensures |r| <= |s| && r == s[..|r|]
    ensures forall k :: |r| <= k < |s| ==> IsSpace(s[k])
    ensures |r| > 0 ==> !IsSpace(r[|r| - 1])
    decreases |s|
  {
    if |s| > 0 && IsSpace(s[|s| - 1]) then TrimEnd(s[..|s| - 1]) else s
  }

  /** `s.strip()`: whitespace removed from both ends. */
  function Strip(s: string): (r: string)
    ensures |r| > 0 ==> !IsSpace(r[0]) && !IsSpace(r[|r| - 1])
  {
    TrimEnd(TrimStart(s))
  }

  /** `r` is the slice of `s` from `i` with only whitespace cut on either side. */
  predicate TrimmedAt(s: string, r: string, i: int) {
    && 0 <= i && i + |r| <= |s| && r == s[i..i + |r|]
    && (forall k :: 0 <= k < i ==> IsSpace(s[k]))
    && (forall k :: i + |r| <= k < |s| ==> IsSpace(s[k]))
  }

  /** Where `strip()`'s result starts in its input. */
  lemma StripOffset(s: string) returns (i: int)
    ensures TrimmedAt(s, Strip(s), i)
  {
    var t := TrimStart(s);
    var r := TrimEnd(t);
    assert Strip(s) == r;
    i := |s| - |t|;
    SliceOfSuffix(s, t, r);
    SpaceAfterSlice(s, t, r);
    assert forall k :: 0 <= k < i ==> IsSpace(s[k]);
  }

  /** A prefix of a suffix of `s` is a slice of `s`. */
  lemma SliceOfSuffix(s: string, t: string, r: string)
    requires |t| <= |s| && t == s[|s| - |t|..]
    requires |r| <= |t| && r == t[..|r|]
    ensures r == s[|s| - |t|..|s| - |t| + |r|]
  {
  }

  /** Whitespace after a prefix of a suffix is whitespace in `s`. */
  lemma SpaceAfterSlice(s: string, t: string, r: string)
    requires |t| <= |s| && t == s[|s| - |t|..] && |r| <= |t|
    requires forall k :: |r| <= k < |t| ==> IsSpace(t[k])
    ensures forall k :: |s| - |t| + |r| <= k < |s| ==> IsSpace(s[k])
  {
    var i := |s| - |t|;
    forall k | i + |r| <= k < |s|
      ensures IsSpace(s[k])
    {
      assert s[k] == t[k - i];
    }
  }


  /** `strip()` cuts whitespace from the ends and nothing else: its result is
      a slice of the input with only whitespace before and after it, and no
      whitespace left at either end. */
  lemma StripTrimsSpace(s: string)
    ensures exists i :: TrimmedAt(s, Strip(s), i)
    ensures |Strip(s)| > 0 ==> !IsSpace(Strip(s)[0]) && !IsSpace(Strip(s)[|Strip(s)| - 1])
  {
    var i := StripOffset(s);
  }


  /** `strip()` keeps every non-whitespace character and adds none. */
  lemma StripChars(s: string)
    ensures forall c :: c in Strip(s) ==> c in s
    ensures forall c :: c in s && !IsSpace(c) ==> c in Strip(s)
  {
    forall c | c in Strip(s)
      ensures c in s
    {
      StripFrom(s, c);
    }
    forall c | c in s && !IsSpace(c)
      ensures c in Strip(s)
    {
      StripKeeps(s, c);
    }
  }

  /** A character of `strip()`'s result comes from its input. */
  lemma StripFrom(s: string, c: char)
    requires c in Strip(s)
    ensures c in s
  {
    var t := TrimStart(s);
    var r := TrimEnd(t);
    var k :| 0 <= k < |r| && r[k] == c;
    assert r == t[..|r|] && t == s[|s| - |t|..];
    assert t[k] == c;
    var off := |s| - |t|;
    assert s[off + k] == c;
  }

  /** `strip()` keeps every character that is not whitespace. */
  lemma StripKeeps(s: string, c: char)
    requires c in s && !IsSpace(c)
    ensures c in Strip(s)
  {
    var t := TrimStart(s);
    var r := TrimEnd(t);
    var off := |s| - |t|;
    var k :| 0 <= k < |s| && s[k] == c;
    assert k >= off;
    assert t[k - off] == c;
    assert k - off < |r|;
    assert r[k - off] == c;
  }

  /** A string with no whitespace at either end is left alone by `strip()`. */
  lemma StripNoop(s: string)
    requires |s| == 0 || (!IsSpace(s[0]) && !IsSpace(s[|s| - 1]))
    ensures Strip(s) == s
  {
  }

  /** An ASCII letter is not whitespace. */
  predicate IsLetter(c: char) {
    'A' <= c <= 'Z' || 'a' <= c <= 'z'
  }

  /** Text that begins and ends with an ASCII letter has no whitespace to strip. */
  lemma StripWord(s: string)
    requires |s| > 0 ==> IsLetter(s[0]) && IsLetter(s[|s| - 1])
    ensures Strip(s) == s
  {
    if |s| > 0 {
      assert !IsSpace(s[0]) && !IsSpace(s[|s| - 1]);
    }
    StripNoop(s);
  }

  /** `strip()` is idempotent. */
  lemma StripIdempotent(s: string)
    ensures Strip(Strip(s)) == Strip(s)
  {
    StripNoop(Strip(s));
  }

  // ---------------------------------------------------------------------
  // str.lower() and substring search

  /** Lower-casing of one character (ASCII letters only). */
  function LowerChar(c: char): char {
    if 'A' <= c <= 'Z' then (c as int + 32) as char else c
  }

  /** `s.lower()`, restricted to ASCII letters. */
  function Lower(s: string): (r: string)
    ensures |r| == |s|
  {
    seq(|s|, i requires 0 <= i < |s| => LowerChar(s[i]))
  }

  /** Lower-casing keeps an occurrence of text that has no upper-case letter. */
  lemma LowerOccurs(hay: string, needle: string, i: int)
    requires OccursAt(hay, needle, i)
    requires forall k :: 0 <= k < |needle| ==> !('A' <= needle[k] <= 'Z')
    ensures OccursAt(Lower(hay), needle, i) && Contains(Lower(hay), needle)
  {
    assert Lower(hay)[i..i + |needle|] == needle by {
      forall k | 0 <= k < |needle|
        ensures Lower(hay)[i + k] == needle[k]
      {
        assert hay[i + k] == hay[i..i + |needle|][k];
      }
    }
    assert 0 <= i <= |Lower(hay)| - |needle| && OccursAt(Lower(hay), needle, i);
  }

  /** `needle` occurs in `hay` starting at index `i`. */
  predicate OccursAt(hay: string, needle: string, i: int) {
    0 <= i && i + |needle| <= |hay| && hay[i..i + |needle|] == needle
  }

  /** Python's `needle in hay` for strings. */
  predicate Contains(hay: string, needle: string) {
    exists i :: 0 <= i <= |hay| - |needle| && OccursAt(hay, needle, i)
  }

  /** Whatever contains a string contains every piece of it. */
  lemma ContainsPart(hay: string, a: string, b: string, c: string)
    requires Contains(hay, a + b + c)
    ensures Contains(hay, b)
  {
    var n := a + b + c;
    var i :| 0 <= i <= |hay| - |n| && OccursAt(hay, n, i);
    assert hay[i..i + |n|] == n;
    assert forall k :: 0 <= k < |b| ==> n[|a| + k] == b[k];
    assert n[|a|..|a| + |b|] == b;
    assert hay[i + |a|..i + |a| + |b|] == n[|a|..|a| + |b|];
    assert OccursAt(hay, b, i + |a|);
  }

  /** Python's `any(k in text for k in words)`. */
  predicate MentionsAny(text: string, words: seq<string>) {
    exists k :: 0 <= k < |words| && Contains(text, words[k])
  }

  // ---------------------------------------------------------------------
  // replace, split, join

  /** `s.replace(c, "")`. */
  function RemoveChar(s: string, c: char): (r: string)
    ensures forall x :: x in r <==> x in s && x != c
  {
    if |s| == 0 then [] else (if s[0] == c then [] else [s[0]]) + RemoveChar(s[1..], c)
  }

  /** Removing a character distributes over concatenation. */
  lemma {:induction false} RemoveCharAppend(a: string, b: string, c: char)
    ensures RemoveChar(a + b, c) == RemoveChar(a, c) + RemoveChar(b, c)
  {
    if |a| > 0 {
      assert (a + b)[1..] == a[1..] + b;
      RemoveCharAppend(a[1..], b, c);
    } else {
      assert a + b == b;
    }
  }

  /** A string without `c` is unchanged by removing `c`. */
  lemma {:induction false} RemoveCharAbsent(s: string, c: char)
    requires c !in s
    ensures RemoveChar(s, c) == s
  {
    if |s| > 0 {
      assert s[1..] + [] == s[1..];
      RemoveCharAbsent(s[1..], c);
      assert s == [s[0]] + s[1..];
    }
  }

  /** `s.replace(a, b)` for single characters. */
  function ReplaceChar(s: string, a: char, b: char): (r: string)
    ensures |r| == |s|
  {
    seq(|s|, i requires 0 <= i < |s| => if s[i] == a then b else s[i])
  }

  /** Replacing a character the text lacks changes nothing. */
  lemma ReplaceCharAbsent(s: string, a: char, b: char)
    requires a !in s
    ensures ReplaceChar(s, a, b) == s
  {
    forall i | 0 <= i < |s|
      ensures ReplaceChar(s, a, b)[i] == s[i]
    {
      assert s[i] in s;
    }
  }

  /** Replacing `a` by a `b` the text lacks, then `b` by `a`, gives the text back. */
  lemma ReplaceCharBack(s: string, a: char, b: char)
    requires b !in s
    ensures ReplaceChar(ReplaceChar(s, a, b), b, a) == s
  {
    var r := ReplaceChar(ReplaceChar(s, a, b), b, a);
    forall i | 0 <= i < |s|
      ensures r[i] == s[i]
    {
      assert s[i] in s;
    }
  }

  /** The index of the first `c` in `s`. */
  function FirstIndex(s: string, c: char): (i: nat)
    requires c in s
    ensures i < |s| && s[i] == c && c !in s[..i]
  {
    if s[0] == c then 0 else 1 + FirstIndex(s[1..], c)
  }

  /** `s.split(c, 1)[1]` when `c` occurs in `s`, and `s` itself otherwise. */
  function AfterFirst(s: string, c: char): (r: string)
    ensures |r| <= |s|
  {
    if c in s then s[FirstIndex(s, c) + 1..] else s
  }

  /** What follows the first separator is everything after it, whatever it holds. */
  lemma AfterFirstSplit(a: string, c: char, b: string)
    requires c !in a
    ensures AfterFirst(a + [c] + b, c) == b
  {
    var s := a + [c] + b;
    assert s[|a|] == c;
    assert s[..|a|] == a;
    var i := FirstIndex(s, c);
    assert i == |a|;
    assert s[i + 1..] == b;
  }

  predicate IsLineBreak(c: char) {
    c == '\n' || c == '\r'
  }

  /** A string holding no line-break character. */
  predicate IsOneLine(s: string) {
    forall i :: 0 <= i < |s| ==> !IsLineBreak(s[i])
  }

  /** The pieces of `text` between line breaks, where `\n`, `\r` and `\r\n`
      all end a line (the `\r\n` case also yields an empty piece). */
  function SplitLines(text: string): (lines: seq<string>)
    ensures |lines| > 0
    ensures forall k :: 0 <= k < |lines| ==> IsOneLine(lines[k])
    decreases |text|
  {
    if |text| == 0 then [""]
    else
      var rest := SplitLines(text[1..]);
      if IsLineBreak(text[0]) then [""] + rest
      else [[text[0]] + rest[0]] + rest[1..]
  }

  /** The lines hold no line break, and joining them with `"\n"` gives the
      text back, with every line break written as `\n`. */
  lemma {:induction false} SplitLinesJoin(text: string)
    ensures Join("\n", SplitLines(text)) == ReplaceChar(text, '\r', '\n')
    ensures forall k :: 0 <= k < |SplitLines(text)| ==> IsOneLine(SplitLines(text)[k])
    decreases |text|
  {
    if |text| > 0 {
      var rest := SplitLines(text[1..]);
      SplitLinesJoin(text[1..]);
      assert ReplaceChar(text, '\r', '\n') == [if text[0] == '\r' then '\n' else text[0]] + ReplaceChar(text[1..], '\r', '\n');
      if IsLineBreak(text[0]) {
        assert ([""] + rest)[1..] == rest;
      } else {
        var parts := [[text[0]] + rest[0]] + rest[1..];
        if |rest| > 1 {
          assert parts[1..] == rest[1..];
        }
      }
    }
  }

  /** `sep.join(parts)`. */
  function Join(sep: string, parts: seq<string>): string {
    if |parts| == 0 then ""
    else if |parts| == 1 then parts[0]
    else parts[0] + sep + Join(sep, parts[1..])
  }

  // ---------------------------------------------------------------------
  // Decimal digits and integers

  predicate IsDigit(c: char) {
    '0' <= c <= '9'
  }

  function DigitValue(c: char): nat
    requires IsDigit(c)
  {
    c as int - '0' as int
  }

  function DigitChar(d: nat): (c: char)
    requires d < 10
    ensures IsDigit(c) && DigitValue(c) == d
  {
    ('0' as int + d) as char
  }

  /** Every character is an ASCII digit (the empty string qualifies). */
  predicate IsDigits(s: string) {
    forall i :: 0 <= i < |s| ==> IsDigit(s[i])
  }

  /** The value of a run of decimal digits, most significant first. */
  function DigitsValue(s: string): nat
    requires IsDigits(s)
  {
    if |s| == 0 then 0 else 10 * DigitsValue(s[..|s| - 1]) + DigitValue(s[|s| - 1])
  }

  function Pow10(e: nat): (p: nat)
    ensures p >= 1
  {
    if e == 0 then 1 else 10 * Pow10(e - 1)
  }

  /** `str(n)` for a natural number: the shortest decimal digits of `n`. */
  function NatText(n: nat): (r: string)
    ensures |r| > 0 && IsDigits(r)
    decreases n
  {
    if n < 10 then [DigitChar(n)] else NatText(n / 10) + [DigitChar(n % 10)]
  }

  /** `str(n)` for an integer. */
  function IntText(n: int): (r: string)
    ensures |r| > 0 && !IsSpace(r[0]) && IsDigit(r[|r| - 1])
    ensures forall c :: c in r ==> IsDigit(c) || c == '-'
  {
    var t := NatText(if n < 0 then -n else n);
    assert t[|t| - 1] in t;
    if n < 0 then "-" + t else t
  }

  /** Reading back the digits of `n` gives `n`. */
  lemma {:induction false} NatTextValue(n: nat)
    ensures DigitsValue(NatText(n)) == n
    decreases n
  {
    if n >= 10 {
      NatTextValue(n / 10);
      var t := NatText(n);
      assert t[..|t| - 1] == NatText(n / 10);
    }
  }

  /** The digits of a number below `10^e` (with `e >= 1`) fit in `e` places. */
  lemma {:induction false} NatTextLength(n: nat, e: nat)
    requires e >= 1 && n < Pow10(e)
    ensures |NatText(n)| <= e
    decreases n
  {
    if n >= 10 {
      assert e >= 2;
      assert n / 10 < Pow10(e - 1);
      NatTextLength(n / 10, e - 1);
    }
  }

  /** The value of concatenated digit runs. */
  lemma {:induction false} DigitsValueAppend(a: string, b: string)
    requires IsDigits(a) && IsDigits(b)
    ensures IsDigits(a + b)
    ensures DigitsValue(a + b) == DigitsValue(a) * Pow10(|b|) + DigitsValue(b)
    decreases |b|
  {
    if |b| == 0 {
      assert a + b == a;
    } else {
      var b' := b[..|b| - 1];
      var d := DigitValue(b[|b| - 1]);
      assert (a + b)[..|a + b| - 1] == a + b';
      assert (a + b)[|a + b| - 1] == b[|b| - 1];
      DigitsValueAppend(a, b');
      var x, y, p := DigitsValue(a), DigitsValue(b'), Pow10(|b'|);
      assert DigitsValue(a + b) == 10 * (x * p + y) + d;
      assert DigitsValue(b) == 10 * y + d;
      assert Pow10(|b|) == 10 * p;
      calc {
        10 * (x * p + y) + d;
        (10 * (x * p)) + (10 * y + d);
        { MulAssoc(x, p); }
        x * (10 * p) + (10 * y + d);
      }
    }
  }

  lemma MulAssoc(x: int, p: int)
    ensures 10 * (x * p) == x * (10 * p)
  {
  }

  /** An optional `+` or `-` followed by one or more digits, as an integer. */
  function SignedDigits(t: string): (r: Option<int>)
    ensures r.Some? ==> forall c :: c in t ==> IsDigit(c) || c == '+' || c == '-'
  {
    if |t| > 1 && (t[0] == '+' || t[0] == '-') && IsDigits(t[1..]) then
      assert t == [t[0]] + t[1..];
      Some(if t[0] == '-' then -(DigitsValue(t[1..]) as int) else DigitsValue(t[1..]))
    else if |t| > 0 && IsDigits(t) then
      Some(DigitsValue(t))
    else
      None
  }

  lemma DivMod(a: nat, p: nat)
    requires p >= 1
    ensures 0 <= a / p && 0 <= a % p < p && a == (a / p) * p + a % p
  {
  }

  /** `int(s)` on text, for the signed-decimal grammar: optional surrounding
      whitespace, an optional `+` or `-`, then one or more ASCII digits. Any
      other text is a `ValueError`, here `None`. */
  function ParseInt(s: string): (r: Option<int>)
    ensures r.Some? ==> forall c :: c in s ==> IsDigit(c) || IsSpace(c) || c == '+' || c == '-'
  {
    StripChars(s);
    SignedDigits(Strip(s))
  }

  /** Text holding a character outside the integer grammar is not an integer. */
  lemma ParseIntRejects(s: string, x: char)
    requires x in s && !IsDigit(x) && !IsSpace(x) && x != '+' && x != '-'
    ensures ParseInt(s).None?
  {
  }

  /** `int(str(n)) == n`. */
  lemma IntTextRoundTrip(n: int)
    ensures ParseInt(IntText(n)) == Some(n)
  {
    StripNoop(IntText(n));
    SignedDigitsOfIntText(n);
  }

  /** The text of an integer is a sign and digits that denote it. */
  lemma SignedDigitsOfIntText(n: int)
    ensures SignedDigits(IntText(n)) == Some(n)
  {
    var t := IntText(n);
    if n < 0 {
      NatTextValue(-n);
      assert t[1..] == NatText(-n);
    } else {
      NatTextValue(n);
      assert t == NatText(n) && IsDigit(t[0]);
    }
  }

  // ---------------------------------------------------------------------
  // Floats, as exact decimals

  /** The decimal number `mant / 10^exp`; the model's stand-in for a Python float. */
  datatype Dec = Dec(mant: int, exp: nat)

  /** No trailing zero in the fraction digits: the form Python prints. */
  predicate IsCanonical(d: Dec) {
    d.exp == 0 || d.mant % 10 != 0
  }

  /** The same number with trailing fraction zeros dropped. */
  function Canon(d: Dec): (c: Dec)
    ensures IsCanonical(c) && c.exp <= d.exp
    decreases d.exp
  {
    if d.exp > 0 && d.mant % 10 == 0 then Canon(Dec(d.mant / 10, d.exp - 1)) else d
  }

  /** A canonical decimal is its own canonical form. */
  lemma CanonOfCanonical(d: Dec)
    requires IsCanonical(d)
    ensures Canon(d) == d
  {
  }

  function Zeros(n: nat): (r: string)
    ensures |r| == n && IsDigits(r) && DigitsValue(r) == 0
  {
    if n == 0 then "" else
      assert (Zeros(n - 1) + "0")[..n - 1] == Zeros(n - 1);
      Zeros(n - 1) + "0"
  }

  /** Digits `s` left-padded with zeros to `width` characters. */
  function PadZeros(s: string, width: nat): (r: string)
    requires IsDigits(s)
    ensures IsDigits(r)
  {
    if |s| < width then
      DigitsValueAppend(Zeros(width - |s|), s);
      Zeros(width - |s|) + s
    else s
  }

  /** Every member of a digit run is a digit. */
  lemma DigitsMembers(s: string)
    requires IsDigits(s)
    ensures forall c :: c in s ==> IsDigit(c)
  {
    forall c | c in s
      ensures IsDigit(c)
    {
      var k :| 0 <= k < |s| && s[k] == c;
    }
  }

  /** `-whole.frac` or `whole.frac`. */
  function PointText(neg: bool, whole: string, frac: string): (r: string)
    requires IsDigits(whole) && IsDigits(frac)
    ensures '.' in r
    ensures forall c :: c in r ==> IsDigit(c) || c == '-' || c == '.'
  {
    DigitsMembers(whole);
    DigitsMembers(frac);
    var sign := if neg then "-" else "";
    var r := sign + (whole + ("." + frac));
    assert r[|sign| + |whole|] == '.';
    r
  }

  function Abs(n: int): nat {
    if n < 0 then -n else n
  }

  /** The digits before the point of a decimal. */
  function WholeDigits(c: Dec): (r: string)
    ensures |r| > 0 && IsDigits(r)
  {
    DivMod(Abs(c.mant), Pow10(c.exp));
    NatText(Abs(c.mant) / Pow10(c.exp))
  }

  /** The `exp` digits after the point of a decimal (one `0` when `exp` is zero). */
  function FracDigits(c: Dec): (r: string)
    ensures |r| > 0 && IsDigits(r)
  {
    if c.exp == 0 then "0"
    else
      DivMod(Abs(c.mant), Pow10(c.exp));
      FracDigitsValue(Abs(c.mant) % Pow10(c.exp), c.exp, PadZeros(NatText(Abs(c.mant) % Pow10(c.exp)), c.exp));
      PadZeros(NatText(Abs(c.mant) % Pow10(c.exp)), c.exp)
  }

  /** The text of a decimal: optional `-`, the whole part, `.`, and exactly
      `exp` fraction digits (one `0` when `exp` is zero). */
  function DecText(c: Dec): (r: string)
    ensures '.' in r
    ensures forall ch :: ch in r ==> IsDigit(ch) || ch == '-' || ch == '.'
  {
    PointText(c.mant < 0, WholeDigits(c), FracDigits(c))
  }

  /** `str(x)` for a float `x`: optional `-`, the whole part, `.`, and the
      fraction digits without trailing zeros (at least one digit). */
  function FloatText(d: Dec): (r: string)
    ensures '.' in r
    ensures forall ch :: ch in r ==> IsDigit(ch) || ch == '-' || ch == '.'
  {
    DecText(Canon(d))
  }

  /** The first `c` of `a + [c] + b`, when `a` holds none, is the one after `a`. */
  lemma FirstIndexAfter(a: string, c: char, b: string)
    requires c !in a
    ensures c in a + ([c] + b)
    ensures FirstIndex(a + ([c] + b), c) == |a|
  {
    var s := a + ([c] + b);
    assert s[|a|] == c;
    assert s[..|a|] == a;
  }

  /** The sign, whole digits and fraction digits of a number's text. */
  datatype NumberParts = NumberParts(neg: bool, whole: string, frac: string)

  /** The text before the first `.`, or all of it when there is none. */
  function BeforePoint(b: string): (r: string)
    ensures |r| <= |b|
  {
    if '.' in b then b[..FirstIndex(b, '.')] else b
  }

  /** The text after the first `.`, or nothing when there is none. */
  function AfterPoint(b: string): (r: string)
    ensures |r| <= |b|
  {
    if '.' in b then b[FirstIndex(b, '.') + 1..] else ""
  }

  /** Splits text without surrounding whitespace into an optional leading
      sign, the part before the first `.`, and the part after it. */
  function SplitNumber(t: string): (p: NumberParts)
    ensures |p.whole| + |p.frac| <= |t|
  {
    var signed := |t| > 0 && (t[0] == '+' || t[0] == '-');
    var body := if signed then t[1..] else t;
    NumberParts(signed && t[0] == '-', BeforePoint(body), AfterPoint(body))
  }

  /** Splitting loses no character but the sign and the point. */
  lemma SplitNumberMembers(t: string)
    ensures forall c :: c in t ==> c == '+' || c == '-' || c == '.' || c in SplitNumber(t).whole || c in SplitNumber(t).frac
  {
    forall c | c in t
      ensures c == '+' || c == '-' || c == '.' || c in SplitNumber(t).whole || c in SplitNumber(t).frac
    {
      var k :| 0 <= k < |t| && t[k] == c;
      var signed := |t| > 0 && (t[0] == '+' || t[0] == '-');
      var body := if signed then t[1..] else t;
      if !(signed && k == 0) {
        var j := if signed then k - 1 else k;
        assert body[j] == c;
        PointSplitAt(body, j);
      }
    }
  }

  /** Where the character at index `j` goes when text is split at its first `.`. */
  lemma PointSplitAt(b: string, j: int)
    requires 0 <= j < |b|
    ensures b[j] == '.' || b[j] in BeforePoint(b) || b[j] in AfterPoint(b)
  {
    if '.' in b {
      var i := FirstIndex(b, '.');
      if j < i {
        assert BeforePoint(b)[j] == b[j];
      } else if j > i {
        assert AfterPoint(b)[j - i - 1] == b[j];
      }
    } else {
      assert BeforePoint(b)[j] == b[j];
    }
  }

  /** The decimal that whole digits `whole` and fraction digits `frac` denote. */
  function DecOf(neg: bool, whole: string, frac: string): (d: Dec)
    requires IsDigits(whole) && IsDigits(frac)
    ensures IsCanonical(d)
  {
    DigitsValueAppend(whole, frac);
    var m: int := DigitsValue(whole + frac);
    Canon(Dec(if neg then -m else m, |frac|))
  }

  /** Decimal text without surrounding whitespace: an optional sign, digits
      with at most one `.`, and at least one digit. */
  function ParseDecimal(t: string): (r: Option<Dec>)
    ensures r.Some? ==> IsCanonical(r.value)
    ensures r.Some? ==> forall c :: c in t ==> IsDigit(c) || c == '+' || c == '-' || c == '.'
  {
    var p := SplitNumber(t);
    SplitNumberMembers(t);
    if IsDigits(p.whole) && IsDigits(p.frac) && |p.whole| + |p.frac| > 0 then
      DigitsMembers(p.whole);
      DigitsMembers(p.frac);
      Some(DecOf(p.neg, p.whole, p.frac))
    else
      None
  }

  /** `float(s)` on text, for the decimal grammar: optional surrounding
      whitespace, an optional sign, digits with at most one `.`, at least one
      digit. Any other text is a `ValueError`, here `None`. */
  function ParseFloat(s: string): (r: Option<Dec>)
    ensures r.Some? ==> IsCanonical(r.value)
    ensures r.Some? ==> forall c :: c in s ==> IsDigit(c) || IsSpace(c) || c == '+' || c == '-' || c == '.'
  {
    StripChars(s);
    ParseDecimal(Strip(s))
  }

  /** `float(str(x)) == x`: the text a float prints as reads back as the same number. */
  lemma FloatTextRoundTrip(d: Dec)
    ensures ParseFloat(FloatText(d)) == Some(Canon(d))
  {
    DecTextRoundTrip(Canon(d));
  }

  /** The text of a canonical decimal reads back as that decimal. */
  lemma DecTextRoundTrip(c: Dec)
    requires IsCanonical(c)
    ensures ParseFloat(DecText(c)) == Some(c)
  {
    var a := Abs(c.mant);
    var p := Pow10(c.exp);
    DivMod(a, p);
    DecOfValue(c);
    ParsePointText(c.mant < 0, WholeDigits(c), FracDigits(c));
  }

  /** Text written by PointText reads back as the decimal its digits denote. */
  lemma ParsePointText(neg: bool, whole: string, frac: string)
    requires IsDigits(whole) && IsDigits(frac) && |whole| > 0 && |frac| > 0
    ensures ParseFloat(PointText(neg, whole, frac)) == Some(DecOf(neg, whole, frac))
  {
    var t := PointText(neg, whole, frac);
    PointTextStripped(neg, whole, frac);
    SplitPointText(neg, whole, frac);
    assert ParseFloat(t) == ParseDecimal(t);
  }

  /** Text written by PointText has no surrounding whitespace. */
  lemma PointTextStripped(neg: bool, whole: string, frac: string)
    requires IsDigits(whole) && IsDigits(frac) && |whole| > 0 && |frac| > 0
    ensures Strip(PointText(neg, whole, frac)) == PointText(neg, whole, frac)
  {
    var t := PointText(neg, whole, frac);
    assert t[|t| - 1] == frac[|frac| - 1];
    assert t[0] == if neg then '-' else whole[0];
    StripNoop(t);
  }

  /** `whole.frac` splits at its dot back into `whole` and `frac`. */
  lemma SplitAtDot(whole: string, frac: string)
    requires IsDigits(whole)
    ensures '.' in whole + ("." + frac)
    ensures (whole + ("." + frac))[..FirstIndex(whole + ("." + frac), '.')] == whole
    ensures (whole + ("." + frac))[FirstIndex(whole + ("." + frac), '.') + 1..] == frac
  {
    DigitsMembers(whole);
    FirstIndexAfter(whole, '.', frac);
    var body := whole + ("." + frac);
    assert body[..|whole|] == whole;
    assert body[|whole| + 1..] == frac;
  }

  /** Text written by PointText splits back into its parts. */
  lemma SplitPointText(neg: bool, whole: string, frac: string)
    requires IsDigits(whole) && IsDigits(frac) && |whole| > 0 && |frac| > 0
    ensures SplitNumber(PointText(neg, whole, frac)) == NumberParts(neg, whole, frac)
  {
    var sign := if neg then "-" else "";
    var body := whole + ("." + frac);
    var t := PointText(neg, whole, frac);
    assert t == sign + body;
    var signed := |t| > 0 && (t[0] == '+' || t[0] == '-');
    assert signed == neg;
    assert (if signed then t[1..] else t) == body;
    SplitAtDot(whole, frac);
  }

  /** The digits DecText writes for a canonical decimal denote that decimal. */
  lemma DecOfValue(c: Dec)
    requires IsCanonical(c)
    ensures DecOf(c.mant < 0, WholeDigits(c), FracDigits(c)) == c
  {
    if c.exp == 0 {
      assert Abs(c.mant) / Pow10(c.exp) == Abs(c.mant);
      WholeDecValue(c, Abs(c.mant), WholeDigits(c));
    } else {
      FracDecValue(c);
    }
  }

  /** The digits of a canonical decimal with fraction digits denote it. */
  lemma FracDecValue(c: Dec)
    requires IsCanonical(c) && c.exp > 0
    ensures DecOf(c.mant < 0, WholeDigits(c), FracDigits(c)) == c
  {
    var whole, frac := WholeDigits(c), FracDigits(c);
    var m: int := DigitsValue(whole + frac) by {
      DigitsValueAppend(whole, frac);
    }
    DigitsAtPoint(c);
    assert Dec(if c.mant < 0 then -m else m, |frac|) == c;
    CanonOfCanonical(c);
  }

  /** Whole and fraction digits together read as the magnitude of the mantissa. */
  lemma DigitsAtPoint(c: Dec)
    requires c.exp > 0
    ensures |FracDigits(c)| == c.exp && IsDigits(WholeDigits(c) + FracDigits(c))
    ensures DigitsValue(WholeDigits(c) + FracDigits(c)) == Abs(c.mant)
  {
    var a, p := Abs(c.mant), Pow10(c.exp);
    DivMod(a, p);
    var q, r := a / p, a % p;
    var whole, frac := WholeDigits(c), FracDigits(c);
    NatTextValue(q);
    FracDigitsValue(r, c.exp, frac);
    DigitsValueAppend(whole, frac);
    assert DigitsValue(whole) == q && DigitsValue(frac) == r && Pow10(|frac|) == p;
  }

  /** A decimal with no fraction digits prints as `whole.0`, which reads back as itself. */
  lemma WholeDecValue(c: Dec, q: nat, whole: string)
    requires c.exp == 0
    requires (if c.mant < 0 then -c.mant else c.mant) == q
    requires whole == NatText(q)
    ensures DecOf(c.mant < 0, whole, "0") == c
  {
    DigitsValueAppend(whole, "0");
    NatTextValue(q);
    var m: int := DigitsValue(whole + "0");
    assert m == 10 * q;
    var e := Dec(if c.mant < 0 then -m else m, 1);
    assert e.mant % 10 == 0;
    assert e.mant / 10 == c.mant;
    assert Canon(e) == Canon(Dec(c.mant, 0));
  }

  /** Zero-padded fraction digits keep their value and fill the width. */
  lemma FracDigitsValue(rm: nat, e: nat, frac: string)
    requires e >= 1 && rm < Pow10(e)
    requires frac == PadZeros(NatText(rm), e)
    ensures IsDigits(frac) && |frac| == e && DigitsValue(frac) == rm
  {
    NatTextValue(rm);
    NatTextLength(rm, e);
    PadZerosValue(NatText(rm), e);
  }

  lemma ZeroTimes(x: int, y: int)
    requires x == 0
    ensures x * y == 0
  {
  }

  /** Padding digits with zeros up to a width keeps their value. */
  lemma PadZerosValue(s: string, width: nat)
    requires IsDigits(s) && |s| <= width
    ensures |PadZeros(s, width)| == width && DigitsValue(PadZeros(s, width)) == DigitsValue(s)
  {
    if |s| < width {
      var z := Zeros(width - |s|);
      assert PadZeros(s, width) == z + s;
      DigitsValueAppend(z, s);
      ZeroTimes(DigitsValue(z), Pow10(|s|));
    }
  }
}

=== FILE: wrappers.dfy ===
/** Option and Result, the two failure-carrying wrappers the model uses in
    place of Python's None and raised exceptions. */
module Wrappers {

  /** A value that may be absent (Python's `None`). */
  datatype Option<+T> = None | Some(value: T) {

    /** The wrapped value, or `default` when there is none. */
    function GetOr(default: T): T {
      match this
      case Some(v) => v
      case None => default
    }
  }

  /** The outcome of an operation that may raise: `Ok` carries the value,
      `Err` names the exception that would have been raised. */
  datatype Result<+T, +E> = Ok(value: T) | Err(error: E) {

    predicate IsFailure() {
      Err?
    }

    function PropagateFailure<U>(): Result<U, E>
      requires Err?
    {
      Err(error)
    }

    function Extract(): T
      requires Ok?
    {
      value
    }
  }
}
